=== FILE: README.md ===
# chc query client core, in Dafny

This project models the sequential logic inside `clickhouse_requests.go` of
chc, a command-line client for ClickHouse, and proves properties about that
logic. The goroutines, channels and sockets around it are not modelled.
There are four parts.

- **Service-response decoding** (`service.dfy`, `strconv.dfy`).
  `getProgressInfo` and `getQueryStats` send a lookup through
  `serviceRequest` and check that the table has the expected shape. They then
  decode its columns by position with `strconv.ParseUint` / `strconv.ParseInt`
  and discard the parse errors. Go's base-10, 64-bit parsers are modelled
  exactly, including the value they return together with a syntax or range
  error.
- **The result stream of `queryToStdout`** (`events.dfy`, `reader.dfy`,
  `coordinator.dfy`, `session.dfy`).
  - The reader goroutine is a function from the HTTP result to the events it
    sends: Status, then one Data event per complete line, then Done or
    Failure. Its context check is given as the look at which it first sees
    cancellation.
  - The `Loop2` select is a fold over the events in the order they arrive.
    It returns the status, an ordered trace of effects and the way the loop
    ended. The effects are stdout writes, stderr messages, progress
    clear/render, the ticker stop and the `killQuery` call.
  - The progress ticker is a function from the lookup behaviour at each tick
    to the Progress events it sends.
- **Header sniffing in `queryToStdout2`** (`headers.dfy`). The connection
  is a list of chunks, each one what a single `conn.Read` returns.
  - `bufio.Reader.ReadString('\n')` over an `io.TeeReader` pulls chunks into
    the buffer and records them in the tee buffer.
  - The loop trims each line and stops at the first blank one, or at end of
    stream.
  - It hands the trimmed text after the 22-byte `X-ClickHouse-Progress:`
    prefix to the JSON decoder.
- **Tee and replay** (`headers.dfy`). The tee buffer followed by the bytes
  still unread on the connection is what `io.MultiReader` hands to
  `http.ReadResponse`. It is always exactly the stream the connection
  delivered.

The remaining files:
- `text.dfy` models `strings.TrimSpace`, with Go's `unicode.IsSpace`, and
  the line splitting of `ReadString('\n')`.
- `wrappers.dfy` holds `Option`.

Collaborators that the file calls but does not define are parameters of the
model:
- `serviceRequest` is a function from the lookup to a response.
- `killQuery` is a function from the query id to its boolean answer.
- The JSON decoder of the progress header is a function that may fail.
- `writeProgres`, `clearProgress` and `initProgress` become recorded effects.

## Model

| member | source | states |
|---|---|---|
| Strconv.ParseUint | clickhouse_requests.go:73-77 | `ParseUint(s, 10, 64)` agrees on every input with a left-to-right reference, and the first problem met decides the result. Empty text, or a non-digit before any overflow, gives 0 with a syntax error. A digit run past 2^64-1 gives 2^64-1 with a range error. Otherwise the result is the decimal value. |
| Strconv.ScanUintMatchesReference | clickhouse_requests.go:73-77 | Go's digit loop computes the reference result. The loop uses the cutoff test `n >= MaxUint64/10+1` and the wrapped-add test on the 64-bit accumulator. |
| Strconv.ParseFormatUint | clickhouse_requests.go:73-77 | Every unsigned 64-bit value, written in decimal, parses back to itself with no error. |
| Strconv.ParseInt | clickhouse_requests.go:78 | `ParseInt(s, 10, 64)`: a syntax error happens exactly when `ParseUint` of the text after an optional sign reports one, so empty text, a bare sign and any non-digit all give 0 with a syntax error. A range error gives the int64 bound on the side of the sign. A signed digit string in range gives its signed value with no error; out of range it is clamped to the bound. |
| Strconv.ParseFormatInt | clickhouse_requests.go:78 | Every int64, written in decimal with a leading minus when negative, parses back to itself with no error. |
| Text.TrimSpace | clickhouse_requests.go:257 | `strings.TrimSpace` returns a piece of its input that sits between a leading and a trailing run of Unicode white space. Neither end of the result is white space. |
| Text.TrimSpaceEmpty | clickhouse_requests.go:257-258 | A line's trimmed message is empty exactly when the line is all white space, so any all-white-space line ends the headers. |
| Text.SplitLines | clickhouse_requests.go:170 | Reading with `ReadString('\n')` splits a stream into lines. Each line ends in its only newline. Joined, the lines and a newline-free rest give back the stream. |
| Text.SplitLinesUnique | clickhouse_requests.go:170 | Any split of a stream into such lines and rest is the one `SplitLines` gives. |
| Text.LinesAreTerminatedPrefix | clickhouse_requests.go:170-175 | The complete lines, joined, are the longest prefix of the stream that is empty or ends in a newline. |
| Service.Sql | clickhouse_requests.go:60-85 | The two `fmt.Sprintf` queries, with the query id put in verbatim between the fixed text. |
| Service.SqlDeterminesLookup | clickhouse_requests.go:60-85 | Two lookups give the same SQL text exactly when they are the same kind of lookup for the same query id. So a `serviceRequest` that answers by the text is a function of the lookup. |
| Service.GetProgressInfo | clickhouse_requests.go:58-81 | A failed `serviceRequest` passes its error through with a zero record. A table that is not one row of seven columns gives "Bad response dimensions" with a zero record. There is no error exactly when the shape is right. Columns 1-5 are then ParseUint results and column 6 a ParseInt result, each as Go returns it when the error is discarded. |
| Service.ProgressRoundTrip | clickhouse_requests.go:58-81 | Every progress reading the server can send as a one-row table of decimal columns comes back unchanged and with no error. |
| Service.ProgressExample | clickhouse_requests.go:72-78 | A well-formed row decodes to the expected numbers, with the elapsed column kept as text. |
| Service.ProgressBadColumns | clickhouse_requests.go:73-78 | In an unsigned field, an exponent form, an empty column, a negative or a plus-signed number each decode to 0. A bare `"-"` in the signed field also decodes to 0, and the lookup still succeeds. |
| Service.DecodeStatsRow | clickhouse_requests.go:97-106 | The positional statistics decode panics with an index error exactly when the row has fewer than 10 columns, and the failing index is the row's length. Otherwise every field is the ParseUint result or the raw text of its column. |
| Service.GetQueryStatsAsWritten | clickhouse_requests.go:83-108 | As written, no lookup ever returns statistics without error. A failed request passes its error through. A table that is not 1×7 is refused. Every 1×7 table reaches `data[0][7]` and panics. |
| Service.StatsAsWrittenPanics | clickhouse_requests.go:92-104 | A concrete 1×7 reply passes the dimension check and then panics on index 7. |
| Service.StatsRowRefusedAsWritten | clickhouse_requests.go:85-95 | The 11-column row that the SQL text selects is refused as written with "Bad response dimensions". |
| Service.GetQueryStats | clickhouse_requests.go:83-108 | With the check corrected to the 11 selected columns, the decode never panics. A failed request passes its error through, and a mis-shaped table is refused. There is no error exactly when the table is one row of 11 columns. The record then holds columns 0-7 as ParseUint results and columns 8 and 9 as their raw text. |
| Service.StatsRoundTrip | clickhouse_requests.go:85-106 | With the corrected check, any statistics record sent as its 11-column row comes back unchanged and with no error. |
| ResultReader.ReadLoopToEnd | clickhouse_requests.go:163-183 | Without cancellation the read loop sends one Data event per remaining line, then Done at EOF or Failure on a read error. |
| ResultReader.ReadLoopCut | clickhouse_requests.go:163-169 | Cancellation seen before read k stops the loop silently after the Data events of the lines before it. |
| ResultReader.ReaderForm | clickhouse_requests.go:147-188 | After a response, the reader sends the status code, then the Data events of the complete body lines and the end event. If cancellation is seen first, it sends only the Data events before that look. |
| ResultReader.ReaderEvents | clickhouse_requests.go:147-188 | Everything the reader goroutine sends, in order. Its closed form is ReaderForm. ReaderStatusFirst, ReaderDataLines, ReaderDataIsTerminatedPrefix, ReaderEndsOnce and CancelledReaderIsPrefix state its properties. |
| ResultReader.ReadLoop | clickhouse_requests.go:163-183 | The read loop from a given read on. ReadLoopToEnd states the uncancelled case and ReadLoopCut the cancelled one. |
| ResultReader.ReaderWhole | clickhouse_requests.go:161-181 | Uncancelled, the reader sends the status, then every complete line, then exactly one end event. |
| ResultReader.ReaderStatusFirst | clickhouse_requests.go:161 | Uncancelled, the status code is the first event and no other event is a status. |
| ResultReader.ReaderDataLines | clickhouse_requests.go:170-177 | Every Data payload is a line ending in its only newline. |
| ResultReader.ReaderDataIsTerminatedPrefix | clickhouse_requests.go:170-177 | The joined Data payloads are the longest newline-terminated prefix of the body. A trailing partial line, which comes with `io.EOF`, is dropped. |
| ResultReader.ReaderEndsOnce | clickhouse_requests.go:173-181 | The last event is the stream's end event (Done at EOF, Failure otherwise), and it is the only terminal event. |
| ResultReader.CancelledReaderIsPrefix | clickhouse_requests.go:152-168 | Cancellation only truncates what the reader sends. A truncated list holds no end event. |
| Coordinator.QueryToStdout | clickhouse_requests.go:189-218 | Over any arrival order, the returned status is the last status handled, or -1. Stdout is the handled Data payloads joined in order, and each write follows a progress clear. Stderr draws one progress line per handled reading, in order. The outcome is decided by the first Done, Cancel or Failure. On Done the effects end with the ticker stop, a clear and the elapsed report. On Cancel they end with the ticker stop, a clear, the "Killing query" notice, the `killQuery` call and its verdict. At most one value goes to `finishTickerChannel` (buffer 3), and exactly one on Done or Cancel. `killQuery` is called once, with this query's id, exactly on cancellation. The first effect is the initial progress draw. Between it and that closing, nothing reaches stdout or stderr but progress lines and clear-then-write pairs. The draws and writes, in order, are exactly one line per handled progress reading and one write per handled Data payload, in arrival order. So a status code touches neither stream, and no clear happens without the write it precedes. |
| Coordinator.LoopStatus | clickhouse_requests.go:192-193 | The status the loop holds at its end is the last Status among the handled events, or the initial -1. |
| Coordinator.LoopStdout | clickhouse_requests.go:213-215 | What the loop writes to stdout is the Data payloads handled, unchanged and in arrival order. |
| Coordinator.LoopClear | clickhouse_requests.go:213-215 | Every stdout write comes right after a progress clear. |
| Coordinator.LoopRenders | clickhouse_requests.go:206-207 | The progress lines the loop draws are those of the handled progress readings (rows read, bytes read, estimated total), in arrival order. |
| Coordinator.LoopClosing | clickhouse_requests.go:194-212 | However many passes come first, the run ends with the effects its outcome calls for. On Done these are the ticker stop, the clear and the elapsed report. On Cancel they are the ticker stop, the clear, the kill notice, the `killQuery` call and its verdict. |
| Coordinator.LoopOnlyDrawsAndWrites | clickhouse_requests.go:189-217 | However many passes come first, the effects are those the run started with, then only progress lines and clear-then-write pairs, then the closing of the outcome. Only the Done and Cancel cases stop the ticker, kill or write a notice. |
| Coordinator.LoopShown | clickhouse_requests.go:189-217 | However many passes come first, the progress lines drawn and the stdout writes, in order, are one line per handled progress reading and one write per handled Data payload, in arrival order. A status pass neither draws nor writes. |
| Coordinator.Loop | clickhouse_requests.go:189-217 | The select loop over the arrival order. Its status, stdout, clears, renders, outcome, counts and closing are stated by LoopStatus, LoopStdout, LoopClear, LoopRenders, LoopOutcome, LoopCounts and LoopClosing. |
| Coordinator.StepEffects | clickhouse_requests.go:192-215 | One pass for an event that does not end the loop. By StepViews, StepRenders, StepShown and StepOnlyDrawsAndWrites, only Data writes to stdout, right after a clear, only a progress reading draws a line, and a status pass adds nothing that is drawn or written. No pass stops the ticker or kills. |
| Coordinator.Finish | clickhouse_requests.go:194-212 | The ending pass. By FinishViews, FinishRenders and FinishClosing, it writes nothing to stdout and draws no line. Done and Cancel stop the ticker once, and Cancel alone calls `killQuery`. Each closes as Closing says. |
| Coordinator.LoopOutcome | clickhouse_requests.go:194-212 | The loop ends as the first terminal event says. A Done completes it, a Cancel cancels it with `killQuery`'s answer, and a reader error is fatal. With no terminal event the loop is still waiting. |
| Coordinator.LoopCounts | clickhouse_requests.go:194-212 | The ticker-stop sends and `killQuery` calls are counted over the whole run: one stop on Done or Cancel, none on failure, and one kill call exactly on Cancel. |
| Coordinator.FinishViews | clickhouse_requests.go:194-212 | The ending pass adds one ticker stop unless the run fails, and a `killQuery` call only on Cancel. It adds no stdout output and keeps clears before writes. |
| Coordinator.LoopIgnoresRest | clickhouse_requests.go:203 | Events after the first terminal one are never looked at. |
| Coordinator.IgnoresAfterTerminal | clickhouse_requests.go:203-212 | Once a terminal event has arrived, appending further events changes nothing in the run. |
| Coordinator.ProgressIndependent | clickhouse_requests.go:206-207 | Progress readings affect only stderr: with all of them removed, the status, the outcome and stdout are as before. |
| Session.PollerEvents | clickhouse_requests.go:133-137 | The ticker sends at most one reading per tick, and everything it sends is a progress reading. |
| Session.FailedTickSkipped | clickhouse_requests.go:134-137 | A tick whose lookup fails or is mis-shaped sends nothing. |
| Session.SuccessfulTickSent | clickhouse_requests.go:134-136 | A tick whose lookup answers one row of seven columns sends exactly its decoded reading, ahead of what the later ticks send. |
| Session.ReaderRunCompletes | clickhouse_requests.go:110-220 | The reader's events for a response ending at EOF may be interleaved with any progress readings. The run then completes, returns the response's status and writes the body up to its last newline to stdout. No kill happens. |
| Session.ReaderRunFails | clickhouse_requests.go:179-205 | A body read error ends the run fatally with that error, whatever progress arrives. |
| Session.SelectOneExample | clickhouse_requests.go:189-218 | Status 200, the line "1\n" and Done complete the run with status 200 and stdout "1\n". |
| Session.CancelBeforeDataExample | clickhouse_requests.go:194-203 | Suppose a cancellation arrives before any data and `killQuery` answers false. Then `killQuery` is called once, nothing reaches stdout, and the last stderr message is "failure!\n\n". |
| Headers.Fill | clickhouse_requests.go:245-246 | Filling the buffer moves bytes from the connection into the buffer and the tee. What is still unread, and what the replay would give, stay as they were. Afterwards a newline is buffered or the connection is drained. |
| Headers.ReadString | clickhouse_requests.go:246-248 | A read either returns a complete line that starts the unread stream or, at end of stream, the newline-free remainder. The replay stream is unchanged. |
| Headers.Payload | clickhouse_requests.go:263-270 | Offset 22 is exactly the length of `X-ClickHouse-Progress:`. The payload is what is left of the rest of the header line between a leading and a trailing run of white space, and neither of its ends is white space. So it is that rest, trimmed. |
| Headers.SniffHeaders | clickhouse_requests.go:244-283 | The loop's readings and ending depend only on the delivered bytes, however they are chunked: they equal the scan of the stream's complete lines. The replayed stream equals exactly what the connection delivered. |
| Headers.Consider | clickhouse_requests.go:257-279 | One pass of the header loop over a trimmed line: a blank line stops the loop, an undecodable progress payload stops it fatally, a decoded one is drawn, and any other line is passed over. LineScan and ReferenceCons state how it drives the scan. |
| Headers.Scan | clickhouse_requests.go:247-280 | The header loop over trimmed lines. ScanReference equates it with the loop-free Reference, and IgnoresAfterBlank and AppendAfterBlank state what it ignores. |
| Headers.ScanReference | clickhouse_requests.go:247-280 | The scan over trimmed lines equals a loop-free definition. Take the progress headers before the first blank line. Every payload up to the first undecodable one is drawn, in order. The scan ends on that payload, else on the blank line, else as the stream ends. |
| Headers.IgnoresAfterBlank | clickhouse_requests.go:258-259 | After the blank line, neither the following lines nor the way the stream ends affects the scan. |
| Headers.AppendAfterBlank | clickhouse_requests.go:258-259 | Lines appended after a blank one leave the scan unchanged. |
| Headers.BodyNotScanned | clickhouse_requests.go:258-282 | If the header lines contain a blank one, any response body after them leaves the scan as it is on the header lines alone. |
| Headers.MessagesAppend | clickhouse_requests.go:257 | Trimming lines one by one commutes with joining lists of lines. |

## Left out

- `ParseFloat` of the elapsed column and `Elapsed*1e9` are floating point. The elapsed column is kept as its text, and renders carry no elapsed value.
- The goroutines, channels, `select` and the 125 ms ticker are concurrency. An arrival-ordered list of events stands in for the scheduling. The ticker is a list of per-tick lookup behaviours.
- The reader's `<-cx.Done()` checks race with the coordinator's. They are modelled only as the index of the reader's first look that sees cancellation.
- `time.Now` and `time.Since` read the clock. The elapsed report on Done is an effect without its text.
- UUID generation is random. The query id is a parameter.
- `net.Dial`, `req.Write`, `http.DefaultClient.Do`, `http.ReadResponse`, `io.Copy` and the `bufio.Writer` flushes are network and library I/O. The model ends at the replayed stream handed to `http.ReadResponse`.
- The header decode through `json.Unmarshal` is a parameter that may fail. Only the extraction of its payload is modelled.
- `serviceRequest`, `prepareRequest`, `killQuery` and `getHost` are not defined in this file. They are parameters or left out.
- `writeProgres`, `clearProgress` and `initProgress` are not defined in this file. They are effects without their terminal formatting.
- `log.Fatal` and `log.Fatalln` end the process. They become the outcomes `Fatal`, `ReadFailed` and `BadProgress`.
- Coordinator.QueryToStdout: the status of a `Fatal` or `Waiting` run is the model's own value. It is not a returned one: `log.Fatalln` at line 205 exits the process, and with no more arrivals the select at line 191 blocks, so Go returns only after Done or Cancel.
- `getServerVersion` is a thin wrapper that indexes `data[0][0]` unchecked.
- `bufio.Reader` has a 4096-byte buffer and returns `io.ErrNoProgress` after 100 empty reads. The model fills the buffer one connection read at a time and does not bound its size. The `ReadString` results, and so the scan and the replay, do not depend on that bound.
- Headers.SniffHeaders: a read error is raised only once the delivered chunks run out. The connection's end, `Eof` or `ReadError`, is given once and decides between `EndedEarly` and `ReadFailed`. An error in mid-stream is the same as the stream ending there with `ReadError`: the chunks hold what arrived before it.
- The byte-level view of strings is left out: text is a sequence of characters. `'\n'` and the header prefix are ASCII, and `unicode.IsSpace` is applied per character.

## Findings

| source | as written | input that shows it | evidently intended | confidence | as-written member | corrected member |
|---|---|---|---|---|---|---|
| clickhouse_requests.go:92-104 | `getQueryStats` accepts only a row of 7 columns, then reads `data[0][7]`, `data[0][8]` and `data[0][9]`. Every table that passes the check panics with index 7 out of range, and the 11-column row the query selects is refused. | `serviceRequest` answers the one-row table `["12","100","2048","0","0","1","8"]` | check for the 11 columns the SQL selects, so a one-row answer of that query decodes | high; not executed | Service.StatsAsWrittenPanics | Service.StatsRoundTrip |

=== FILE: coordinator.dfy ===
/**
 * The coordinator loop of queryToStdout (the select labelled Loop2), run
 * sequentially over the events in the order they arrive at the select.
 *
 * Everything the loop does to the outside world is recorded, in order, as
 * an effect: writes to stdout and stderr, clearing and drawing the
 * progress line, stopping the progress ticker and calling killQuery. The
 * elapsed-time text written on completion depends on the clock and is
 * recorded as ReportElapsed without its text.
 */
module Coordinator {
  import opened Strconv
  import opened Service
  import opened Events
  import Text

  /** The buffer size of finishTickerChannel. */
  const FinishTickerCapacity := 3

  datatype Effect =
    | InitProgress
    | ClearProgress
    | RenderProgress(readRows: u64, readBytes: u64, totalRowsApprox: u64)
    | Stdout(text: string)
    | Stderr(notice: Notice)
    | ReportElapsed
    | StopTicker
    | KillQuery(queryID: string)

  /**
   * How the loop ended: it is still waiting at the select (the arrival
   * list ran out), the stream completed, the context was cancelled (with
   * killQuery's answer), or a reader error ended the process through
   * log.Fatalln.
   */
  datatype Outcome = Waiting | Completed | Cancelled(killed: bool) | Fatal(err: string)

  /** The status the function returns, the effects in order, and the outcome. */
  datatype Run = Run(status: int, effects: seq<Effect>, outcome: Outcome)

  /** The two messages the loop writes to stderr on cancellation. */
  datatype Notice = Killing(queryID: string) | KillVerdict(killed: bool)

  /** The exact text of each stderr message. */
  function NoticeText(n: Notice): string {
    match n
    case Killing(queryID) => "\nKilling query (id: " + queryID + ")... "
    case KillVerdict(killed) => if killed then "killed!\n\n" else "failure!\n\n"
  }

  /** The progress line drawn for a reading: rows read, bytes read and the estimated total. */
  function RenderOf(pi: ProgressInfo): Effect {
    RenderProgress(pi.readRows, pi.readBytes, pi.totalRowsApprox)
  }

  /** The effects of one pass of the select for an event that does not end the loop. */
  function StepEffects(e: Event): seq<Effect>
    requires !IsTerminal(e)
  {
    match e
    case Status(_) => []
    case Progress(pi) => [RenderOf(pi)]
    case Data(text) => [ClearProgress] + [Stdout(text)]
  }

  /** The status after one pass of the select: a status code replaces the one kept so far. */
  function StepStatus(e: Event, status: int): int {
    if e.Status? then e.code else status
  }

  /** What Done adds: stop the ticker, clear the progress line, report the elapsed time. */
  function DoneEffects(effects: seq<Effect>): seq<Effect> {
    effects + [StopTicker] + [ClearProgress] + [ReportElapsed]
  }

  /** What Cancel adds: stop the ticker, clear, announce the kill, call killQuery, report its answer. */
  function CancelEffects(effects: seq<Effect>, queryID: string, killed: bool): seq<Effect> {
    effects + [StopTicker] + [ClearProgress] + [Stderr(Killing(queryID))]
      + [KillQuery(queryID)] + [Stderr(KillVerdict(killed))]
  }

  /** The pass of the select that ends the loop. */
  function Finish(e: Event, status: int, effects: seq<Effect>, queryID: string, killQuery: string -> bool): Run
    requires IsTerminal(e)
  {
    match e
    case Done => Run(status, DoneEffects(effects), Completed)
    case Cancel =>
      var killed := killQuery(queryID);
      Run(status, CancelEffects(effects, queryID, killed), Cancelled(killed))
    case Failure(err) => Run(status, effects, Fatal(err))
  }

  /** One pass of the select per arrived event, until a terminal event ends the loop. */
  function Loop(evs: seq<Event>, status: int, effects: seq<Effect>, queryID: string, killQuery: string -> bool): Run
    decreases |evs|
  {
    if |evs| == 0 then Run(status, effects, Waiting)
    else if IsTerminal(evs[0]) then Finish(evs[0], status, effects, queryID, killQuery)
    else Loop(evs[1..], StepStatus(evs[0], status), effects + StepEffects(evs[0]), queryID, killQuery)
  }

  /** Everything written to stdout, in order. */
  function StdoutText(fx: seq<Effect>): string
    decreases |fx|
  {
    if |fx| == 0 then ""
    else StdoutText(fx[..|fx| - 1]) + (if fx[|fx| - 1].Stdout? then fx[|fx| - 1].text else "")
  }

  /** How many values were sent to finishTickerChannel. */
  function TickerStops(fx: seq<Effect>): nat
    decreases |fx|
  {
    if |fx| == 0 then 0
    else TickerStops(fx[..|fx| - 1]) + (if fx[|fx| - 1] == StopTicker then 1 else 0)
  }

  /** The arguments killQuery was called with, in order. */
  function KillCalls(fx: seq<Effect>): seq<string>
    decreases |fx|
  {
    if |fx| == 0 then []
    else KillCalls(fx[..|fx| - 1]) + (if fx[|fx| - 1].KillQuery? then [fx[|fx| - 1].queryID] else [])
  }

  /** The progress lines drawn, in order. */
  function Renders(fx: seq<Effect>): seq<Effect>
    decreases |fx|
  {
    if |fx| == 0 then []
    else Renders(fx[..|fx| - 1]) + (if fx[|fx| - 1].RenderProgress? then [fx[|fx| - 1]] else [])
  }

  /** The progress line each progress reading calls for, in arrival order. */
  function ProgressRenders(evs: seq<Event>): seq<Effect>
    decreases |evs|
  {
    if |evs| == 0 then []
    else (if evs[0].Progress? then [RenderOf(evs[0].info)] else []) + ProgressRenders(evs[1..])
  }

  /** The progress lines drawn and the stdout writes, in the order they happen. */
  function Shown(fx: seq<Effect>): seq<Effect>
    decreases |fx|
  {
    if |fx| == 0 then []
    else Shown(fx[..|fx| - 1]) + (if fx[|fx| - 1].RenderProgress? || fx[|fx| - 1].Stdout? then [fx[|fx| - 1]] else [])
  }

  /** What one event shows: a progress reading its line, a data line its text on stdout, anything else nothing. */
  function ShownBy(e: Event): seq<Effect> {
    match e
    case Progress(pi) => [RenderOf(pi)]
    case Data(text) => [Stdout(text)]
    case _ => []
  }

  /** What the events show, in arrival order. */
  function ShownOf(evs: seq<Event>): seq<Effect>
    decreases |evs|
  {
    if |evs| == 0 then [] else ShownBy(evs[0]) + ShownOf(evs[1..])
  }

  /**
   * What stderr and the ticker see last, for each way the loop ends: on
   * completion the ticker stop, a clear and the elapsed report; on
   * cancellation the ticker stop, a clear, the kill notice, the killQuery
   * call and its verdict; nothing in particular otherwise.
   */
  function Closing(o: Outcome, queryID: string): seq<Effect> {
    match o
    case Completed => [StopTicker, ClearProgress, ReportElapsed]
    case Cancelled(killed) => [StopTicker, ClearProgress, Stderr(Killing(queryID)), KillQuery(queryID), Stderr(KillVerdict(killed))]
    case _ => []
  }

  predicate EndsWith(fx: seq<Effect>, tail: seq<Effect>) {
    |tail| <= |fx| && fx[|fx| - |tail|..] == tail
  }

  /**
   * Only what the passes of the select before the last one leave: progress
   * lines drawn, and stdout writes each with the clear in front of it.
   */
  predicate OnlyDrawsAndWrites(fx: seq<Effect>) {
    forall j :: 0 <= j < |fx| ==>
      || fx[j].RenderProgress?
      || fx[j].Stdout?
      || (fx[j] == ClearProgress && j + 1 < |fx| && fx[j + 1].Stdout?)
  }

  /** Every write to stdout comes straight after a clear of the progress line. */
  predicate ClearBeforeStdout(fx: seq<Effect>) {
    forall j :: 0 <= j < |fx| && fx[j].Stdout? ==> 0 < j && fx[j - 1] == ClearProgress
  }

  /** The outcome the first terminal event calls for. */
  function OutcomeOf(evs: seq<Event>, queryID: string, killQuery: string -> bool): Outcome {
    var k := FirstTerminal(evs);
    if k == |evs| then Waiting
    else
      match evs[k]
      case Done => Completed
      case Cancel => Cancelled(killQuery(queryID))
      case Failure(err) => Fatal(err)
      case _ => Waiting
  }

  /**
   * queryToStdout over an arrival order. The returned status is the last
   * status code handled (-1 if none); stdout is the handled Data payloads
   * joined in order, each written right after a progress clear; the loop
   * ends as its first Done, Cancel or Failure event says; at most one value
   * goes to finishTickerChannel, so its buffer of three never fills; and
   * killQuery is called once, with this query's id, exactly on cancellation,
   * its answer deciding the last message. On stderr, every progress
   * reading handled draws its line, in order, and the run closes with the
   * effects Closing names for its outcome. Between the initial draw and
   * that closing, nothing but progress lines and clear-then-write pairs
   * reaches the two streams, and the draws and writes are, in order, what
   * the handled events show: a status code touches neither stream.
   */
  function QueryToStdout(evs: seq<Event>, queryID: string, killQuery: string -> bool): (r: Run)
    ensures r.status == LastStatus(Handled(evs), -1)
    ensures StdoutText(r.effects) == DataText(Handled(evs))
    ensures ClearBeforeStdout(r.effects)
    ensures r.outcome == OutcomeOf(evs, queryID, killQuery)
    ensures TickerStops(r.effects) == (if r.outcome.Completed? || r.outcome.Cancelled? then 1 else 0)
    ensures TickerStops(r.effects) <= FinishTickerCapacity
    ensures KillCalls(r.effects) == (if r.outcome.Cancelled? then [queryID] else [])
    ensures r.outcome.Cancelled? ==> 0 < |r.effects| && r.effects[|r.effects| - 1] == Stderr(KillVerdict(r.outcome.killed))
    ensures Renders(r.effects) == ProgressRenders(Handled(evs))
    ensures Shown(r.effects) == ShownOf(Handled(evs))
    ensures EndsWith(r.effects, Closing(r.outcome, queryID))
    ensures 0 < |r.effects| && r.effects[0] == InitProgress
    ensures 1 + |Closing(r.outcome, queryID)| <= |r.effects|
            && OnlyDrawsAndWrites(r.effects[1..|r.effects| - |Closing(r.outcome, queryID)|])
  {
    var r := Loop(evs, -1, [InitProgress], queryID, killQuery);
    RunContract(evs, queryID, killQuery, r);
    r
  }

  /** Everything QueryToStdout promises, for the loop started from the initial draw. */
  lemma RunContract(evs: seq<Event>, queryID: string, killQuery: string -> bool, r: Run)
    requires r == Loop(evs, -1, [InitProgress], queryID, killQuery)
    ensures && r.status == LastStatus(Handled(evs), -1)
      && StdoutText(r.effects) == DataText(Handled(evs))
      && ClearBeforeStdout(r.effects)
      && r.outcome == OutcomeOf(evs, queryID, killQuery)
      && TickerStops(r.effects) == (if r.outcome.Completed? || r.outcome.Cancelled? then 1 else 0)
      && TickerStops(r.effects) <= FinishTickerCapacity
      && KillCalls(r.effects) == (if r.outcome.Cancelled? then [queryID] else [])
      && (r.outcome.Cancelled? ==> 0 < |r.effects| && r.effects[|r.effects| - 1] == Stderr(KillVerdict(r.outcome.killed)))
      && Renders(r.effects) == ProgressRenders(Handled(evs))
      && Shown(r.effects) == ShownOf(Handled(evs))
      && EndsWith(r.effects, Closing(r.outcome, queryID))
      && 0 < |r.effects| && r.effects[0] == InitProgress
      && 1 + |Closing(r.outcome, queryID)| <= |r.effects|
      && OnlyDrawsAndWrites(r.effects[1..|r.effects| - |Closing(r.outcome, queryID)|])
  {
    RunViews(evs, queryID, killQuery);
    RunStderr(evs, queryID, killQuery);
    RunFrame(evs, queryID, killQuery);
  }

  /** A run from the initial draw: its status, stdout, outcome, ticker stops and kill calls. */
  lemma RunViews(evs: seq<Event>, queryID: string, killQuery: string -> bool)
    ensures var r := Loop(evs, -1, [InitProgress], queryID, killQuery);
      && r.status == LastStatus(Handled(evs), -1)
      && StdoutText(r.effects) == DataText(Handled(evs))
      && ClearBeforeStdout(r.effects)
      && r.outcome == OutcomeOf(evs, queryID, killQuery)
      && TickerStops(r.effects) == (if r.outcome.Completed? || r.outcome.Cancelled? then 1 else 0)
      && KillCalls(r.effects) == (if r.outcome.Cancelled? then [queryID] else [])
      && (r.outcome.Cancelled? ==> 0 < |r.effects| && r.effects[|r.effects| - 1] == Stderr(KillVerdict(r.outcome.killed)))
  {
    var fx := [InitProgress];
    LoopStatus(evs, -1, fx, queryID, killQuery);
    LoopStdout(evs, -1, fx, queryID, killQuery);
    LoopClear(evs, -1, fx, queryID, killQuery);
    LoopOutcome(evs, -1, fx, queryID, killQuery);
    LoopCounts(evs, -1, fx, queryID, killQuery);
    InitViews();
  }

  /** A run from the initial draw: the progress lines it draws and the way it closes. */
  lemma RunStderr(evs: seq<Event>, queryID: string, killQuery: string -> bool)
    ensures var r := Loop(evs, -1, [InitProgress], queryID, killQuery);
      && Renders(r.effects) == ProgressRenders(Handled(evs))
      && Shown(r.effects) == ShownOf(Handled(evs))
      && EndsWith(r.effects, Closing(r.outcome, queryID))
  {
    var fx := [InitProgress];
    LoopRenders(evs, -1, fx, queryID, killQuery);
    LoopShown(evs, -1, fx, queryID, killQuery);
    LoopClosing(evs, -1, fx, queryID, killQuery);
    InitViews();
  }

  /** A run from the initial draw: that draw first, the closing last, only draws and writes between. */
  lemma RunFrame(evs: seq<Event>, queryID: string, killQuery: string -> bool)
    ensures var r := Loop(evs, -1, [InitProgress], queryID, killQuery);
      && 0 < |r.effects| && r.effects[0] == InitProgress
      && 1 + |Closing(r.outcome, queryID)| <= |r.effects|
      && OnlyDrawsAndWrites(r.effects[1..|r.effects| - |Closing(r.outcome, queryID)|])
  {
    var r := Loop(evs, -1, [InitProgress], queryID, killQuery);
    LoopOnlyDrawsAndWrites(evs, -1, [InitProgress], queryID, killQuery);
    assert r.effects[0] == r.effects[..1][0];
  }

  lemma InitViews()
    ensures StdoutText([InitProgress]) == ""
    ensures TickerStops([InitProgress]) == 0
    ensures KillCalls([InitProgress]) == []
    ensures ClearBeforeStdout([InitProgress])
    ensures Renders([InitProgress]) == []
    ensures Shown([InitProgress]) == []
  {
    assert [InitProgress][..0] == [];
  }

  lemma HandledCons(evs: seq<Event>)
    requires 0 < |evs|
    ensures IsTerminal(evs[0]) ==> Handled(evs) == [evs[0]]
    ensures !IsTerminal(evs[0]) ==> Handled(evs) == [evs[0]] + Handled(evs[1..])
  {
    if !IsTerminal(evs[0]) {
      var k := FirstTerminal(evs[1..]);
      if k < |evs| - 1 {
        assert evs[..k + 2] == [evs[0]] + evs[1..][..k + 1];
      } else {
        assert evs == [evs[0]] + evs[1..];
      }
    }
  }

  lemma {:induction false} LastStatusCons(e: Event, t: seq<Event>, d: int)
    ensures LastStatus([e] + t, d) == LastStatus(t, StepStatus(e, d))
    decreases |t|
  {
    if |t| == 0 {
      assert [e][..0] == [];
    } else {
      var s := [e] + t;
      assert s[..|s| - 1] == [e] + t[..|t| - 1];
      LastStatusCons(e, t[..|t| - 1], d);
    }
  }

  lemma {:induction false} LoopStatus(evs: seq<Event>, st: int, fx: seq<Effect>, queryID: string, killQuery: string -> bool)
    ensures Loop(evs, st, fx, queryID, killQuery).status == LastStatus(Handled(evs), st)
    decreases |evs|
  {
    if 0 < |evs| {
      HandledCons(evs);
      if IsTerminal(evs[0]) {
        LastStatusCons(evs[0], [], st);
        assert [evs[0]] + [] == [evs[0]];
        assert [evs[0]][..0] == [];
      } else {
        LastStatusCons(evs[0], Handled(evs[1..]), st);
        LoopStep(evs, st, fx, queryID, killQuery);
        LoopStatus(evs[1..], StepStatus(evs[0], st), fx + StepEffects(evs[0]), queryID, killQuery);
      }
    }
  }

  lemma ViewsSnoc(a: seq<Effect>, e: Effect)
    ensures StdoutText(a + [e]) == StdoutText(a) + (if e.Stdout? then e.text else "")
    ensures TickerStops(a + [e]) == TickerStops(a) + (if e == StopTicker then 1 else 0)
    ensures KillCalls(a + [e]) == KillCalls(a) + (if e.KillQuery? then [e.queryID] else [])
  {
    assert (a + [e])[..|a|] == a;
  }

  lemma ClearSnoc(a: seq<Effect>, e: Effect)
    requires ClearBeforeStdout(a)
    requires !e.Stdout? || (0 < |a| && a[|a| - 1] == ClearProgress)
    ensures ClearBeforeStdout(a + [e])
  {
    var b := a + [e];
    forall j | 0 <= j < |b| && b[j].Stdout?
      ensures 0 < j && b[j - 1] == ClearProgress
    {
      if j < |a| {
        assert a[j].Stdout?;
      }
    }
  }

  /** One pass for an event that does not end the loop: only a Data event writes to stdout, and no pass stops the ticker or kills. */
  lemma StepViews(fx: seq<Effect>, e: Event)
    requires !IsTerminal(e)
    ensures StdoutText(fx + StepEffects(e)) == StdoutText(fx) + (if e.Data? then e.text else "")
    ensures TickerStops(fx + StepEffects(e)) == TickerStops(fx)
    ensures KillCalls(fx + StepEffects(e)) == KillCalls(fx)
    ensures ClearBeforeStdout(fx) ==> ClearBeforeStdout(fx + StepEffects(e))
  {
    match e
    case Status(_) =>
      assert fx + [] == fx;
    case Progress(pi) =>
      var r := RenderProgress(pi.readRows, pi.readBytes, pi.totalRowsApprox);
      ViewsSnoc(fx, r);
      if ClearBeforeStdout(fx) {
        ClearSnoc(fx, r);
      }
    case Data(text) =>
      ViewsSnoc(fx, ClearProgress);
      ViewsSnoc(fx + [ClearProgress], Stdout(text));
      assert fx + ([ClearProgress] + [Stdout(text)]) == fx + [ClearProgress] + [Stdout(text)];
      if ClearBeforeStdout(fx) {
        ClearSnoc(fx, ClearProgress);
        ClearSnoc(fx + [ClearProgress], Stdout(text));
      }
  }

  lemma DoneViews(fx: seq<Effect>)
    ensures StdoutText(DoneEffects(fx)) == StdoutText(fx)
    ensures TickerStops(DoneEffects(fx)) == TickerStops(fx) + 1
    ensures KillCalls(DoneEffects(fx)) == KillCalls(fx)
    ensures ClearBeforeStdout(fx) ==> ClearBeforeStdout(DoneEffects(fx))
  {
    var a1 := fx + [StopTicker];
    var a2 := a1 + [ClearProgress];
    ViewsSnoc(fx, StopTicker);
    ViewsSnoc(a1, ClearProgress);
    ViewsSnoc(a2, ReportElapsed);
    if ClearBeforeStdout(fx) {
      ClearSnoc(fx, StopTicker);
      ClearSnoc(a1, ClearProgress);
      ClearSnoc(a2, ReportElapsed);
    }
  }

  lemma CancelViews(fx: seq<Effect>, queryID: string, killed: bool)
    ensures StdoutText(CancelEffects(fx, queryID, killed)) == StdoutText(fx)
    ensures TickerStops(CancelEffects(fx, queryID, killed)) == TickerStops(fx) + 1
    ensures KillCalls(CancelEffects(fx, queryID, killed)) == KillCalls(fx) + [queryID]
    ensures ClearBeforeStdout(fx) ==> ClearBeforeStdout(CancelEffects(fx, queryID, killed))
  {
    var m1 := Stderr(Killing(queryID));
    var m2 := Stderr(KillVerdict(killed));
    var a1 := fx + [StopTicker];
    var a2 := a1 + [ClearProgress];
    var a3 := a2 + [m1];
    var a4 := a3 + [KillQuery(queryID)];
    ViewsSnoc(fx, StopTicker);
    ViewsSnoc(a1, ClearProgress);
    ViewsSnoc(a2, m1);
    ViewsSnoc(a3, KillQuery(queryID));
    ViewsSnoc(a4, m2);
    if ClearBeforeStdout(fx) {
      ClearSnoc(fx, StopTicker);
      ClearSnoc(a1, ClearProgress);
      ClearSnoc(a2, m1);
      ClearSnoc(a3, KillQuery(queryID));
      ClearSnoc(a4, m2);
    }
  }

  /** The pass that ends the loop writes nothing to stdout; Done and Cancel stop the ticker once, and Cancel alone calls killQuery. */
  lemma FinishViews(e: Event, st: int, fx: seq<Effect>, queryID: string, killQuery: string -> bool)
    requires IsTerminal(e)
    ensures StdoutText(Finish(e, st, fx, queryID, killQuery).effects) == StdoutText(fx)
    ensures TickerStops(Finish(e, st, fx, queryID, killQuery).effects) == TickerStops(fx) + (if e.Failure? then 0 else 1)
    ensures KillCalls(Finish(e, st, fx, queryID, killQuery).effects) == KillCalls(fx) + (if e.Cancel? then [queryID] else [])
    ensures ClearBeforeStdout(fx) ==> ClearBeforeStdout(Finish(e, st, fx, queryID, killQuery).effects)
  {
    match e
    case Done => DoneViews(fx);
    case Cancel => CancelViews(fx, queryID, killQuery(queryID));
    case Failure(_) =>
  }

  lemma DataTextCons(e: Event, t: seq<Event>)
    ensures DataText([e] + t) == (if e.Data? then e.text else "") + DataText(t)
  {
    assert ([e] + t)[1..] == t;
  }

  lemma {:induction false} LoopStdout(evs: seq<Event>, st: int, fx: seq<Effect>, queryID: string, killQuery: string -> bool)
    ensures StdoutText(Loop(evs, st, fx, queryID, killQuery).effects) == StdoutText(fx) + DataText(Handled(evs))
    decreases |evs|
  {
    if 0 < |evs| {
      var e := evs[0];
      HandledCons(evs);
      if IsTerminal(e) {
        FinishViews(e, st, fx, queryID, killQuery);
        DataTextCons(e, []);
        assert [e] + [] == [e];
      } else {
        LoopStdout(evs[1..], StepStatus(e, st), fx + StepEffects(e), queryID, killQuery);
        StdoutStep(evs, st, fx, queryID, killQuery);
      }
    }
  }

  /** The inductive step of LoopStdout: a non-terminal first event adds its own text in front of the rest. */
  lemma StdoutStep(evs: seq<Event>, st: int, fx: seq<Effect>, queryID: string, killQuery: string -> bool)
    requires 0 < |evs| && !IsTerminal(evs[0])
    requires StdoutText(Loop(evs[1..], StepStatus(evs[0], st), fx + StepEffects(evs[0]), queryID, killQuery).effects)
      == StdoutText(fx + StepEffects(evs[0])) + DataText(Handled(evs[1..]))
    ensures StdoutText(Loop(evs, st, fx, queryID, killQuery).effects) == StdoutText(fx) + DataText(Handled(evs))
  {
    LoopStep(evs, st, fx, queryID, killQuery);
    HandledCons(evs);
    StdoutStepText(evs[0], Handled(evs[1..]), fx);
  }

  lemma LoopStep(evs: seq<Event>, st: int, fx: seq<Effect>, queryID: string, killQuery: string -> bool)
    requires 0 < |evs| && !IsTerminal(evs[0])
    ensures Loop(evs, st, fx, queryID, killQuery) == Loop(evs[1..], StepStatus(evs[0], st), fx + StepEffects(evs[0]), queryID, killQuery)
  {
  }

  lemma StdoutStepText(e: Event, h: seq<Event>, fx: seq<Effect>)
    requires !IsTerminal(e)
    ensures StdoutText(fx + StepEffects(e)) + DataText(h) == StdoutText(fx) + DataText([e] + h)
  {
    var t := if e.Data? then e.text else "";
    StepViews(fx, e);
    DataTextCons(e, h);
    Text.JoinAssoc(StdoutText(fx), t, DataText(h));
  }

  lemma {:induction false} LoopClear(evs: seq<Event>, st: int, fx: seq<Effect>, queryID: string, killQuery: string -> bool)
    requires ClearBeforeStdout(fx)
    ensures ClearBeforeStdout(Loop(evs, st, fx, queryID, killQuery).effects)
    decreases |evs|
  {
    if 0 < |evs| {
      if IsTerminal(evs[0]) {
        FinishViews(evs[0], st, fx, queryID, killQuery);
      } else {
        StepViews(fx, evs[0]);
        LoopStep(evs, st, fx, queryID, killQuery);
        LoopClear(evs[1..], StepStatus(evs[0], st), fx + StepEffects(evs[0]), queryID, killQuery);
      }
    }
  }

  lemma {:induction false} LoopOutcome(evs: seq<Event>, st: int, fx: seq<Effect>, queryID: string, killQuery: string -> bool)
    ensures Loop(evs, st, fx, queryID, killQuery).outcome == OutcomeOf(evs, queryID, killQuery)
    decreases |evs|
  {
    if 0 < |evs| && !IsTerminal(evs[0]) {
      assert FirstTerminal(evs) == 1 + FirstTerminal(evs[1..]);
      LoopStep(evs, st, fx, queryID, killQuery);
      LoopOutcome(evs[1..], StepStatus(evs[0], st), fx + StepEffects(evs[0]), queryID, killQuery);
    }
  }

  lemma {:induction false} LoopCounts(evs: seq<Event>, st: int, fx: seq<Effect>, queryID: string, killQuery: string -> bool)
    ensures var r := Loop(evs, st, fx, queryID, killQuery);
      && TickerStops(r.effects) == TickerStops(fx) + (if r.outcome.Completed? || r.outcome.Cancelled? then 1 else 0)
      && KillCalls(r.effects) == KillCalls(fx) + (if r.outcome.Cancelled? then [queryID] else [])
      && (r.outcome.Cancelled? ==> 0 < |r.effects| && r.effects[|r.effects| - 1] == Stderr(KillVerdict(r.outcome.killed)))
    decreases |evs|
  {
    if 0 < |evs| {
      if IsTerminal(evs[0]) {
        FinishCounts(evs[0], st, fx, queryID, killQuery);
      } else {
        var fx' := fx + StepEffects(evs[0]);
        StepViews(fx, evs[0]);
        LoopStep(evs, st, fx, queryID, killQuery);
        LoopCounts(evs[1..], StepStatus(evs[0], st), fx', queryID, killQuery);
        assert TickerStops(fx') == TickerStops(fx) && KillCalls(fx') == KillCalls(fx);
      }
    }
  }

  /** The pass that ends the loop: one ticker stop on Done or Cancel, one kill call and the verdict last on Cancel. */
  lemma FinishCounts(e: Event, st: int, fx: seq<Effect>, queryID: string, killQuery: string -> bool)
    requires IsTerminal(e)
    ensures var r := Finish(e, st, fx, queryID, killQuery);
      && TickerStops(r.effects) == TickerStops(fx) + (if r.outcome.Completed? || r.outcome.Cancelled? then 1 else 0)
      && KillCalls(r.effects) == KillCalls(fx) + (if r.outcome.Cancelled? then [queryID] else [])
      && (r.outcome.Cancelled? ==> 0 < |r.effects| && r.effects[|r.effects| - 1] == Stderr(KillVerdict(r.outcome.killed)))
  {
    FinishViews(e, st, fx, queryID, killQuery);
  }

  lemma RendersSnoc(a: seq<Effect>, e: Effect)
    ensures Renders(a + [e]) == Renders(a) + (if e.RenderProgress? then [e] else [])
  {
    assert (a + [e])[..|a|] == a;
  }

  /** One pass for an event that does not end the loop: only a progress reading draws a line. */
  lemma StepRenders(fx: seq<Effect>, e: Event)
    requires !IsTerminal(e)
    ensures Renders(fx + StepEffects(e)) == Renders(fx) + (if e.Progress? then [RenderOf(e.info)] else [])
  {
    match e
    case Status(_) =>
      assert fx + [] == fx;
    case Progress(pi) =>
      RendersSnoc(fx, RenderOf(pi));
    case Data(text) =>
      RendersSnoc(fx, ClearProgress);
      RendersSnoc(fx + [ClearProgress], Stdout(text));
      assert fx + ([ClearProgress] + [Stdout(text)]) == fx + [ClearProgress] + [Stdout(text)];
  }

  /** The pass that ends the loop draws no progress line. */
  lemma FinishRenders(e: Event, st: int, fx: seq<Effect>, queryID: string, killQuery: string -> bool)
    requires IsTerminal(e)
    ensures Renders(Finish(e, st, fx, queryID, killQuery).effects) == Renders(fx)
  {
    match e
    case Done =>
      var a1 := fx + [StopTicker];
      var a2 := a1 + [ClearProgress];
      RendersSnoc(fx, StopTicker);
      RendersSnoc(a1, ClearProgress);
      RendersSnoc(a2, ReportElapsed);
    case Cancel =>
      var a1 := fx + [StopTicker];
      var a2 := a1 + [ClearProgress];
      var a3 := a2 + [Stderr(Killing(queryID))];
      var a4 := a3 + [KillQuery(queryID)];
      RendersSnoc(fx, StopTicker);
      RendersSnoc(a1, ClearProgress);
      RendersSnoc(a2, Stderr(Killing(queryID)));
      RendersSnoc(a3, KillQuery(queryID));
      RendersSnoc(a4, Stderr(KillVerdict(killQuery(queryID))));
    case Failure(_) =>
  }

  lemma ProgressRendersCons(e: Event, t: seq<Event>)
    ensures ProgressRenders([e] + t) == (if e.Progress? then [RenderOf(e.info)] else []) + ProgressRenders(t)
  {
    assert ([e] + t)[1..] == t;
  }

  /** The progress lines the loop draws are those of the handled readings, in arrival order. */
  lemma {:induction false} LoopRenders(evs: seq<Event>, st: int, fx: seq<Effect>, queryID: string, killQuery: string -> bool)
    ensures Renders(Loop(evs, st, fx, queryID, killQuery).effects) == Renders(fx) + ProgressRenders(Handled(evs))
    decreases |evs|
  {
    if 0 < |evs| {
      var e := evs[0];
      HandledCons(evs);
      if IsTerminal(e) {
        FinishRenders(e, st, fx, queryID, killQuery);
        ProgressRendersCons(e, []);
        assert [e] + [] == [e];
      } else {
        LoopRenders(evs[1..], StepStatus(e, st), fx + StepEffects(e), queryID, killQuery);
        RendersStep(evs, st, fx, queryID, killQuery);
      }
    }
  }

  /** The inductive step of LoopRenders: a non-terminal first event adds its own line in front of the rest. */
  lemma RendersStep(evs: seq<Event>, st: int, fx: seq<Effect>, queryID: string, killQuery: string -> bool)
    requires 0 < |evs| && !IsTerminal(evs[0])
    requires Renders(Loop(evs[1..], StepStatus(evs[0], st), fx + StepEffects(evs[0]), queryID, killQuery).effects)
      == Renders(fx + StepEffects(evs[0])) + ProgressRenders(Handled(evs[1..]))
    ensures Renders(Loop(evs, st, fx, queryID, killQuery).effects) == Renders(fx) + ProgressRenders(Handled(evs))
  {
    var e := evs[0];
    var t: seq<Effect> := if e.Progress? then [RenderOf(e.info)] else [];
    LoopStep(evs, st, fx, queryID, killQuery);
    HandledCons(evs);
    StepRenders(fx, e);
    ProgressRendersCons(e, Handled(evs[1..]));
    Text.JoinAssoc(Renders(fx), t, ProgressRenders(Handled(evs[1..])));
  }

  lemma ShownSnoc(a: seq<Effect>, e: Effect)
    ensures Shown(a + [e]) == Shown(a) + (if e.RenderProgress? || e.Stdout? then [e] else [])
  {
    assert (a + [e])[..|a|] == a;
  }

  /** One pass for an event that does not end the loop shows exactly what the event shows. */
  lemma StepShown(fx: seq<Effect>, e: Event)
    requires !IsTerminal(e)
    ensures Shown(fx + StepEffects(e)) == Shown(fx) + ShownBy(e)
  {
    match e
    case Status(_) =>
      assert fx + [] == fx;
    case Progress(pi) =>
      ShownSnoc(fx, RenderOf(pi));
    case Data(text) =>
      ShownSnoc(fx, ClearProgress);
      ShownSnoc(fx + [ClearProgress], Stdout(text));
      assert fx + ([ClearProgress] + [Stdout(text)]) == fx + [ClearProgress] + [Stdout(text)];
  }

  /** The pass that ends the loop neither draws nor writes to stdout. */
  lemma FinishShown(e: Event, st: int, fx: seq<Effect>, queryID: string, killQuery: string -> bool)
    requires IsTerminal(e)
    ensures Shown(Finish(e, st, fx, queryID, killQuery).effects) == Shown(fx)
  {
    match e
    case Done =>
      var a1 := fx + [StopTicker];
      var a2 := a1 + [ClearProgress];
      ShownSnoc(fx, StopTicker);
      ShownSnoc(a1, ClearProgress);
      ShownSnoc(a2, ReportElapsed);
    case Cancel =>
      var a1 := fx + [StopTicker];
      var a2 := a1 + [ClearProgress];
      var a3 := a2 + [Stderr(Killing(queryID))];
      var a4 := a3 + [KillQuery(queryID)];
      ShownSnoc(fx, StopTicker);
      ShownSnoc(a1, ClearProgress);
      ShownSnoc(a2, Stderr(Killing(queryID)));
      ShownSnoc(a3, KillQuery(queryID));
      ShownSnoc(a4, Stderr(KillVerdict(killQuery(queryID))));
    case Failure(_) =>
  }

  lemma ShownOfCons(e: Event, t: seq<Event>)
    ensures ShownOf([e] + t) == ShownBy(e) + ShownOf(t)
  {
    assert ([e] + t)[1..] == t;
  }

  /** What the loop draws and writes is what the handled events show, in arrival order. */
  lemma {:induction false} LoopShown(evs: seq<Event>, st: int, fx: seq<Effect>, queryID: string, killQuery: string -> bool)
    ensures Shown(Loop(evs, st, fx, queryID, killQuery).effects) == Shown(fx) + ShownOf(Handled(evs))
    decreases |evs|
  {
    if 0 < |evs| {
      var e := evs[0];
      HandledCons(evs);
      if IsTerminal(e) {
        FinishShown(e, st, fx, queryID, killQuery);
        ShownOfCons(e, []);
        assert [e] + [] == [e];
      } else {
        LoopShown(evs[1..], StepStatus(e, st), fx + StepEffects(e), queryID, killQuery);
        ShownStep(evs, st, fx, queryID, killQuery);
      }
    }
  }

  /** The inductive step of LoopShown: a non-terminal first event shows its own part in front of the rest. */
  lemma ShownStep(evs: seq<Event>, st: int, fx: seq<Effect>, queryID: string, killQuery: string -> bool)
    requires 0 < |evs| && !IsTerminal(evs[0])
    requires Shown(Loop(evs[1..], StepStatus(evs[0], st), fx + StepEffects(evs[0]), queryID, killQuery).effects)
      == Shown(fx + StepEffects(evs[0])) + ShownOf(Handled(evs[1..]))
    ensures Shown(Loop(evs, st, fx, queryID, killQuery).effects) == Shown(fx) + ShownOf(Handled(evs))
  {
    var e := evs[0];
    LoopStep(evs, st, fx, queryID, killQuery);
    HandledCons(evs);
    StepShown(fx, e);
    ShownOfCons(e, Handled(evs[1..]));
    Text.JoinAssoc(Shown(fx), ShownBy(e), ShownOf(Handled(evs[1..])));
  }

  /** The pass that ends the loop closes with the effects its outcome calls for. */
  lemma FinishClosing(e: Event, st: int, fx: seq<Effect>, queryID: string, killQuery: string -> bool)
    requires IsTerminal(e)
    ensures var r := Finish(e, st, fx, queryID, killQuery);
      EndsWith(r.effects, Closing(r.outcome, queryID))
  {
    match e
    case Done =>
      var c := Closing(Completed, queryID);
      assert DoneEffects(fx) == fx + c;
      assert (fx + c)[|fx + c| - |c|..] == c;
    case Cancel =>
      var killed := killQuery(queryID);
      var c := Closing(Cancelled(killed), queryID);
      assert CancelEffects(fx, queryID, killed) == fx + c;
      assert (fx + c)[|fx + c| - |c|..] == c;
    case Failure(err) =>
      var r := Finish(e, st, fx, queryID, killQuery);
      assert Closing(r.outcome, queryID) == [];
      assert r.effects[|r.effects|..] == [];
  }

  /** However many passes come first, the run closes as its outcome says. */
  lemma {:induction false} LoopClosing(evs: seq<Event>, st: int, fx: seq<Effect>, queryID: string, killQuery: string -> bool)
    ensures var r := Loop(evs, st, fx, queryID, killQuery);
      EndsWith(r.effects, Closing(r.outcome, queryID))
    decreases |evs|
  {
    if |evs| == 0 {
      assert fx[|fx|..] == [];
    } else if IsTerminal(evs[0]) {
      FinishClosing(evs[0], st, fx, queryID, killQuery);
    } else {
      LoopStep(evs, st, fx, queryID, killQuery);
      LoopClosing(evs[1..], StepStatus(evs[0], st), fx + StepEffects(evs[0]), queryID, killQuery);
    }
  }

  /** Two runs of draws and clear-then-write pairs, one after the other, are one such run. */
  lemma OnlyDrawsAndWritesJoin(a: seq<Effect>, b: seq<Effect>)
    requires OnlyDrawsAndWrites(a) && OnlyDrawsAndWrites(b)
    ensures OnlyDrawsAndWrites(a + b)
  {
    var ab := a + b;
    forall j | 0 <= j < |ab|
      ensures || ab[j].RenderProgress?
              || ab[j].Stdout?
              || (ab[j] == ClearProgress && j + 1 < |ab| && ab[j + 1].Stdout?)
    {
      if j < |a| {
        assert ab[j] == a[j];
        assert a[j].RenderProgress? || a[j].Stdout? || (a[j] == ClearProgress && j + 1 < |a| && a[j + 1].Stdout?);
        if j + 1 < |a| {
          assert ab[j + 1] == a[j + 1];
        }
      } else {
        var i := j - |a|;
        assert ab[j] == b[i];
        assert b[i].RenderProgress? || b[i].Stdout? || (b[i] == ClearProgress && i + 1 < |b| && b[i + 1].Stdout?);
        if i + 1 < |b| {
          assert ab[j + 1] == b[i + 1];
        }
      }
    }
  }

  /** A pass for an event that does not end the loop draws, or clears and writes, or does nothing. */
  lemma StepOnlyDrawsAndWrites(e: Event)
    requires !IsTerminal(e)
    ensures OnlyDrawsAndWrites(StepEffects(e))
  {
  }

  /**
   * However many passes come first, the run is the effects it started
   * with, then only draws and clear-then-write pairs, then the closing of
   * its outcome.
   */
  lemma {:induction false} LoopOnlyDrawsAndWrites(evs: seq<Event>, st: int, fx: seq<Effect>, queryID: string, killQuery: string -> bool)
    ensures var r := Loop(evs, st, fx, queryID, killQuery);
      var c := Closing(r.outcome, queryID);
      && |fx| + |c| <= |r.effects|
      && r.effects[..|fx|] == fx
      && OnlyDrawsAndWrites(r.effects[|fx|..|r.effects| - |c|])
    decreases |evs|
  {
    var r := Loop(evs, st, fx, queryID, killQuery);
    var c := Closing(r.outcome, queryID);
    if |evs| == 0 {
      assert r.effects[|fx|..|r.effects| - |c|] == [];
    } else if IsTerminal(evs[0]) {
      FinishOnlyCloses(evs[0], st, fx, queryID, killQuery);
    } else {
      var s := StepEffects(evs[0]);
      LoopStep(evs, st, fx, queryID, killQuery);
      LoopOnlyDrawsAndWrites(evs[1..], StepStatus(evs[0], st), fx + s, queryID, killQuery);
      StepOnlyDrawsAndWrites(evs[0]);
      PrefixStep(r.effects, fx, s, |c|);
    }
  }

  /** The pass that ends the loop adds its closing and nothing else. */
  lemma FinishOnlyCloses(e: Event, st: int, fx: seq<Effect>, queryID: string, killQuery: string -> bool)
    requires IsTerminal(e)
    ensures var r := Finish(e, st, fx, queryID, killQuery);
      var c := Closing(r.outcome, queryID);
      && |fx| + |c| <= |r.effects|
      && r.effects[..|fx|] == fx
      && OnlyDrawsAndWrites(r.effects[|fx|..|r.effects| - |c|])
  {
    var r := Finish(e, st, fx, queryID, killQuery);
    var c := Closing(r.outcome, queryID);
    assert r.effects == fx + c;
    assert r.effects[|fx|..|r.effects| - |c|] == [];
  }

  /** The inductive step of LoopOnlyDrawsAndWrites, on the effect list alone. */
  lemma PrefixStep(all: seq<Effect>, fx: seq<Effect>, s: seq<Effect>, k: nat)
    requires |fx| + |s| + k <= |all|
    requires all[..|fx| + |s|] == fx + s
    requires OnlyDrawsAndWrites(s)
    requires OnlyDrawsAndWrites(all[|fx| + |s|..|all| - k])
    ensures all[..|fx|] == fx
    ensures OnlyDrawsAndWrites(all[|fx|..|all| - k])
  {
    var n := |fx| + |s|;
    assert all[..|fx|] == all[..n][..|fx|] == (fx + s)[..|fx|] == fx;
    assert all[|fx|..n] == all[..n][|fx|..] == (fx + s)[|fx|..] == s;
    assert all[|fx|..|all| - k] == all[|fx|..n] + all[n..|all| - k];
    OnlyDrawsAndWritesJoin(s, all[n..|all| - k]);
  }

  /** Events after the first terminal one are never handled: the run is the run of the handled prefix. */
  lemma {:induction false} LoopIgnoresRest(evs: seq<Event>, st: int, fx: seq<Effect>, queryID: string, killQuery: string -> bool)
    ensures Loop(evs, st, fx, queryID, killQuery) == Loop(Handled(evs), st, fx, queryID, killQuery)
    decreases |evs|
  {
    if 0 < |evs| {
      HandledCons(evs);
      var h := Handled(evs);
      assert h[0] == evs[0];
      if !IsTerminal(evs[0]) {
        assert h[1..] == Handled(evs[1..]);
        LoopStep(evs, st, fx, queryID, killQuery);
        LoopIgnoresRest(evs[1..], StepStatus(evs[0], st), fx + StepEffects(evs[0]), queryID, killQuery);
      }
    }
  }

  /** Whatever arrives after the first Done, Cancel or Failure changes nothing. */
  lemma {:induction false} IgnoresAfterTerminal(evs: seq<Event>, later: seq<Event>, queryID: string, killQuery: string -> bool)
    requires FirstTerminal(evs) < |evs|
    ensures QueryToStdout(evs + later, queryID, killQuery) == QueryToStdout(evs, queryID, killQuery)
  {
    LoopIgnoresRest(evs + later, -1, [InitProgress], queryID, killQuery);
    LoopIgnoresRest(evs, -1, [InitProgress], queryID, killQuery);
    FirstTerminalPrefix(evs, later);
  }

  lemma {:induction false} FirstTerminalPrefix(evs: seq<Event>, later: seq<Event>)
    requires FirstTerminal(evs) < |evs|
    ensures FirstTerminal(evs + later) == FirstTerminal(evs)
    ensures Handled(evs + later) == Handled(evs)
    decreases |evs|
  {
    if !IsTerminal(evs[0]) {
      assert (evs + later)[1..] == evs[1..] + later;
      FirstTerminalPrefix(evs[1..], later);
    }
    var k := FirstTerminal(evs);
    assert (evs + later)[..k + 1] == evs[..k + 1];
  }

  /**
   * Progress readings never change what the loop returns, writes to stdout
   * or ends with: the run without them has the same status, stdout and outcome.
   */
  lemma {:induction false} LoopIgnoresProgress(evs: seq<Event>, st: int, fx: seq<Effect>, fx': seq<Effect>, queryID: string, killQuery: string -> bool)
    requires StdoutText(fx) == StdoutText(fx')
    ensures var r := Loop(evs, st, fx, queryID, killQuery);
            var r' := Loop(WithoutProgress(evs), st, fx', queryID, killQuery);
      r.status == r'.status && r.outcome == r'.outcome && StdoutText(r.effects) == StdoutText(r'.effects)
    decreases |evs|
  {
    if 0 < |evs| {
      var e := evs[0];
      var w := WithoutProgress(evs);
      if e.Progress? {
        StepViews(fx, e);
        assert w == WithoutProgress(evs[1..]);
        LoopStep(evs, st, fx, queryID, killQuery);
        LoopIgnoresProgress(evs[1..], st, fx + StepEffects(e), fx', queryID, killQuery);
      } else {
        assert w[0] == e && w[1..] == WithoutProgress(evs[1..]);
        if IsTerminal(e) {
          FinishViews(e, st, fx, queryID, killQuery);
          FinishViews(e, st, fx', queryID, killQuery);
        } else {
          StepViews(fx, e);
          StepViews(fx', e);
          LoopStep(evs, st, fx, queryID, killQuery);
          LoopStep(w, st, fx', queryID, killQuery);
          LoopIgnoresProgress(evs[1..], StepStatus(e, st), fx + StepEffects(e), fx' + StepEffects(e), queryID, killQuery);
        }
      }
    }
  }

  /** Dropping every progress reading from the arrival order leaves status, stdout and outcome as they were. */
  lemma {:induction false} ProgressIndependent(evs: seq<Event>, queryID: string, killQuery: string -> bool)
    ensures var r := QueryToStdout(evs, queryID, killQuery);
            var r' := QueryToStdout(WithoutProgress(evs), queryID, killQuery);
      r.status == r'.status && r.outcome == r'.outcome && StdoutText(r.effects) == StdoutText(r'.effects)
  {
    LoopIgnoresProgress(evs, -1, [InitProgress], [InitProgress], queryID, killQuery);
  }
}

=== FILE: events.dfy ===
/**
 * The events that reach the select of queryToStdout's coordinator loop,
 * and views of an arrival-ordered list of them.
 */
module Events {
  import opened Service

  /**
   * One event at the merge point: a status code, a line of result data, a
   * progress reading, an error from the reader, end of stream, or the
   * caller's context being cancelled.
   */
  datatype Event =
    | Status(code: int)
    | Data(text: string)
    | Progress(info: ProgressInfo)
    | Failure(err: string)
    | Done
    | Cancel

  /** An event that ends the coordinator loop. */
  predicate IsTerminal(e: Event) {
    e.Failure? || e.Done? || e.Cancel?
  }

  /** Index of the first terminal event, or the length when there is none. */
  function FirstTerminal(evs: seq<Event>): (k: nat)
    ensures k <= |evs|
    ensures forall j :: 0 <= j < k ==> !IsTerminal(evs[j])
    ensures k < |evs| ==> IsTerminal(evs[k])
    decreases |evs|
  {
    if |evs| == 0 || IsTerminal(evs[0]) then 0
    else 1 + FirstTerminal(evs[1..])
  }

  /** The events the loop handles: everything up to and including the first terminal one. */
  function Handled(evs: seq<Event>): seq<Event> {
    var k := FirstTerminal(evs);
    if k < |evs| then evs[..k + 1] else evs
  }

  /** The data payloads, joined in arrival order. */
  function DataText(evs: seq<Event>): string
    decreases |evs|
  {
    if |evs| == 0 then ""
    else (if evs[0].Data? then evs[0].text else "") + DataText(evs[1..])
  }

  /** The code of the last Status event, or dflt when there is none. */
  function LastStatus(evs: seq<Event>, dflt: int): int
    decreases |evs|
  {
    if |evs| == 0 then dflt
    else if evs[|evs| - 1].Status? then evs[|evs| - 1].code
    else LastStatus(evs[..|evs| - 1], dflt)
  }

  /** One Data event per line, in order. */
  function DataEvents(lines: seq<string>): (r: seq<Event>)
    ensures |r| == |lines|
    ensures forall j :: 0 <= j < |r| ==> r[j] == Data(lines[j])
  {
    seq(|lines|, j requires 0 <= j < |lines| => Data(lines[j]))
  }

  /** The list with the progress readings taken out. */
  function WithoutProgress(evs: seq<Event>): (r: seq<Event>)
    ensures forall j :: 0 <= j < |r| ==> !r[j].Progress?
    decreases |evs|
  {
    if |evs| == 0 then []
    else (if evs[0].Progress? then [] else [evs[0]]) + WithoutProgress(evs[1..])
  }
}

=== FILE: headers.dfy ===
/**
 * The header scan of queryToStdout2: the response is read line by line
 * through a buffered reader over a tee of the connection, progress headers
 * are decoded and drawn until the blank line that ends the headers, and the
 * tee's copy followed by the unread connection is handed on as the stream
 * the HTTP response is parsed from.
 *
 * The connection is the sequence of chunks its Read calls return, then how
 * it ends. JSON decoding of a progress header's payload is a parameter.
 */
module Headers {
  import opened Wrappers
  import opened Strconv
  import opened Text
  import opened ResultReader

  /** The three counters an X-ClickHouse-Progress header carries. */
  datatype ProgressData = ProgressData(readRows: u64, readBytes: u64, totalRows: u64)

  /** What the connection delivers: the chunks of its successive reads, then EOF or an error. */
  datatype Conn = Conn(chunks: seq<string>, end: StreamEnd)

  /**
   * The buffered reader over the tee: the bytes buffered but not yet
   * returned, the bytes the tee has copied so far, and the chunks not yet
   * read from the connection.
   */
  datatype Reader = Reader(buf: string, tee: string, pending: seq<string>)

  /** The bytes a caller of the reader has yet to see. */
  function Unread(r: Reader): string {
    r.buf + Concat(r.pending)
  }

  /** The stream handed on after the scan: the tee's copy, then the rest of the connection. */
  function Replay(r: Reader): string {
    r.tee + Concat(r.pending)
  }

  /**
   * Pulls chunks from the connection, through the tee, until a newline is
   * buffered or the connection has nothing more to give.
   */
  function Fill(r: Reader): (f: Reader)
    ensures Unread(f) == Unread(r)
    ensures Replay(f) == Replay(r)
    ensures FirstNewline(f.buf) < |f.buf| || f.pending == []
    decreases |r.pending|
  {
    if FirstNewline(r.buf) < |r.buf| || |r.pending| == 0 then r
    else
      var next := Reader(r.buf + r.pending[0], r.tee + r.pending[0], r.pending[1..]);
      assert Concat(r.pending) == r.pending[0] + Concat(r.pending[1..]);
      Fill(next)
  }

  /** What ReadString('\n') returns: a whole line, or the bytes before the end of the stream. */
  datatype Got = Line(text: string) | Partial(text: string)

  datatype ReadOut = ReadOut(reader: Reader, got: Got)

  /**
   * ReadString('\n'): a line through its newline when one comes before the
   * end of the stream, otherwise everything left (the caller then sees the
   * connection's end as the error).
   */
  function ReadString(r: Reader): (o: ReadOut)
    ensures Replay(o.reader) == Replay(r)
    ensures o.got.Line? ==> IsLine(o.got.text) && o.got.text + Unread(o.reader) == Unread(r)
    ensures o.got.Partial? ==> NoNewline(o.got.text) && o.got.text == Unread(r) && Unread(o.reader) == []
  {
    var f := Fill(r);
    var k := FirstNewline(f.buf);
    if k < |f.buf| then
      assert IsLine(f.buf[..k + 1]) by {
        assert f.buf[..k + 1][..k] == f.buf[..k];
      }
      assert f.buf == f.buf[..k + 1] + f.buf[k + 1..];
      ReadOut(Reader(f.buf[k + 1..], f.tee, f.pending), Line(f.buf[..k + 1]))
    else
      assert f.buf[..k] == f.buf;
      ReadOut(Reader([], f.tee, f.pending), Partial(f.buf))
  }

  const ProgressHeader := "X-ClickHouse-Progress:"

  /** The fixed offset the payload is cut at. */
  const ProgressOffset := 22

  /** strings.HasPrefix(message, "X-ClickHouse-Progress:"). */
  predicate IsProgressHeader(m: string) {
    |ProgressHeader| <= |m| && m[..|ProgressHeader|] == ProgressHeader
  }

  /** The JSON text of a progress header: what follows the 22-byte name, trimmed. */
  function Payload(m: string): (p: string)
    requires IsProgressHeader(m)
    ensures ProgressHeader + m[ProgressOffset..] == m
    ensures Trimmed(p)
    ensures exists i :: TrimAt(m[|ProgressHeader|..], p, i)
  {
    assert m == m[..ProgressOffset] + m[ProgressOffset..];
    TrimSpace(m[ProgressOffset..])
  }

  /**
   * How the scan ended: the blank line was reached, the stream hit EOF
   * first (the loop breaks and the response is parsed anyway), the read
   * failed, or a progress payload did not decode (both end the process).
   */
  datatype HeaderOutcome = HeadersEnded | EndedEarly | ReadFailed(err: string) | BadProgress(payload: string)

  /** The progress readings drawn, in order, and how the scan ended. */
  datatype ScanResult = ScanResult(renders: seq<ProgressData>, outcome: HeaderOutcome)

  function Prepend(pds: seq<ProgressData>, s: ScanResult): ScanResult {
    ScanResult(pds + s.renders, s.outcome)
  }

  function EndOutcome(end: StreamEnd): HeaderOutcome {
    if end.Eof? then EndedEarly else ReadFailed(end.err)
  }

  /** What one trimmed header line calls for: stop with an outcome, or draw these readings and go on. */
  datatype Verdict = Stop(outcome: HeaderOutcome) | Keep(pds: seq<ProgressData>)

  /** One pass of the loop body over a trimmed line. */
  function Consider(m: string, decode: string -> Option<ProgressData>): Verdict {
    if m == [] then Stop(HeadersEnded)
    else if IsProgressHeader(m) then
      match decode(Payload(m))
      case None => Stop(BadProgress(Payload(m)))
      case Some(pd) => Keep([pd])
    else Keep([])
  }

  /** Each line as the loop looks at it: with surrounding white space trimmed. */
  function Messages(lines: seq<string>): (ms: seq<string>)
    ensures |ms| == |lines|
    decreases |lines|
  {
    if |lines| == 0 then [] else [TrimSpace(lines[0])] + Messages(lines[1..])
  }

  /** The scan over the trimmed lines of the stream, in order. */
  function Scan(msgs: seq<string>, end: StreamEnd, decode: string -> Option<ProgressData>): ScanResult
    decreases |msgs|
  {
    if |msgs| == 0 then ScanResult([], EndOutcome(end))
    else
      match Consider(msgs[0], decode)
      case Stop(o) => ScanResult([], o)
      case Keep(pds) => Prepend(pds, Scan(msgs[1..], end, decode))
  }

  /** The scan of a whole stream: its complete lines, trimmed, then its end. */
  function ScanText(s: string, end: StreamEnd, decode: string -> Option<ProgressData>): ScanResult {
    Scan(Messages(SplitLines(s).lines), end, decode)
  }

  /**
   * The header loop of queryToStdout2. The drawn readings and the way the
   * loop ends depend only on the bytes the connection delivers, however
   * they are chunked, and equal the scan of its complete lines; and the
   * replayed stream is exactly what the connection delivers, so the
   * response parser sees every byte once, from the status line on.
   */
  method SniffHeaders(conn: Conn, decode: string -> Option<ProgressData>)
    returns (renders: seq<ProgressData>, outcome: HeaderOutcome, replay: string)
    ensures ScanResult(renders, outcome) == ScanText(Concat(conn.chunks), conn.end, decode)
    ensures replay == Concat(conn.chunks)
  {
    var r := Reader([], [], conn.chunks);
    renders := [];
    while true
      invariant Replay(r) == Concat(conn.chunks)
      invariant ScanText(Concat(conn.chunks), conn.end, decode) == Prepend(renders, ScanText(Unread(r), conn.end, decode))
      decreases |Unread(r)|
    {
      var o := ReadString(r);
      if o.got.Partial? {
        PartialScan(Unread(r), conn.end, decode);
        outcome := EndOutcome(conn.end);
        r := o.reader;
        break;
      }
      var msg := o.got.text;
      LineScan(msg, Unread(o.reader), conn.end, decode);
      var message := TrimSpace(msg);
      match Consider(message, decode) {
        case Stop(o') =>
          outcome := o';
          r := o.reader;
          break;
        case Keep(pds) =>
          PrependTwice(renders, pds, ScanText(Unread(o.reader), conn.end, decode));
          renders := renders + pds;
      }
      r := o.reader;
    }
    replay := Replay(r);
  }

  lemma PrependTwice(a: seq<ProgressData>, b: seq<ProgressData>, x: ScanResult)
    ensures Prepend(a, Prepend(b, x)) == Prepend(a + b, x)
  {
    assert a + (b + x.renders) == (a + b) + x.renders;
  }

  /** A stream with no newline has no complete line: its scan is decided by the end alone. */
  lemma PartialScan(s: string, end: StreamEnd, decode: string -> Option<ProgressData>)
    requires NoNewline(s)
    ensures ScanText(s, end, decode) == ScanResult([], EndOutcome(end))
  {
    SplitLinesUnique(Split([], s), s);
  }

  /** A stream that starts with a whole line is scanned as that line, then the rest. */
  lemma LineScan(l: string, t: string, end: StreamEnd, decode: string -> Option<ProgressData>)
    requires IsLine(l)
    ensures ScanText(l + t, end, decode) ==
      match Consider(TrimSpace(l), decode)
      case Stop(o) => ScanResult([], o)
      case Keep(pds) => Prepend(pds, ScanText(t, end, decode))
  {
    var tail := SplitLines(t);
    SplitCons(l, tail, t);
    SplitLinesUnique(Split([l] + tail.lines, tail.rest), l + t);
    MessagesCons(l, tail.lines);
  }

  lemma MessagesCons(l: string, t: seq<string>)
    ensures Messages([l] + t) == [TrimSpace(l)] + Messages(t)
  {
    assert ([l] + t)[1..] == t;
  }

  lemma {:induction false} MessagesAppend(a: seq<string>, b: seq<string>)
    ensures Messages(a + b) == Messages(a) + Messages(b)
    decreases |a|
  {
    if |a| == 0 {
      assert a + b == b;
    } else {
      assert (a + b)[1..] == a[1..] + b;
      MessagesAppend(a[1..], b);
      JoinAssoc([TrimSpace(a[0])], Messages(a[1..]), Messages(b));
    }
  }

  /** Index of the first message that is empty (the blank line that ends the headers), or the length. */
  function FirstBlank(msgs: seq<string>): (k: nat)
    ensures k <= |msgs|
    ensures forall i :: 0 <= i < k ==> msgs[i] != []
    ensures k < |msgs| ==> msgs[k] == []
    decreases |msgs|
  {
    if |msgs| == 0 || msgs[0] == [] then 0
    else
      var k := 1 + FirstBlank(msgs[1..]);
      assert forall i :: 1 <= i < |msgs| ==> msgs[i] == msgs[1..][i - 1];
      k
  }

  /** The payloads of the progress headers among msgs, in order. */
  function ProgressPayloads(msgs: seq<string>): seq<string>
    decreases |msgs|
  {
    if |msgs| == 0 then []
    else (if IsProgressHeader(msgs[0]) then [Payload(msgs[0])] else []) + ProgressPayloads(msgs[1..])
  }

  /** Index of the first payload that does not decode, or the length. */
  function FirstBad(ps: seq<string>, decode: string -> Option<ProgressData>): (j: nat)
    ensures j <= |ps|
    ensures forall i :: 0 <= i < j ==> decode(ps[i]).Some?
    ensures j < |ps| ==> decode(ps[j]).None?
    decreases |ps|
  {
    if |ps| == 0 || decode(ps[0]).None? then 0
    else 1 + FirstBad(ps[1..], decode)
  }

  /** The readings of payloads that all decode. */
  function Decoded(ps: seq<string>, decode: string -> Option<ProgressData>): (pds: seq<ProgressData>)
    requires forall i :: 0 <= i < |ps| ==> decode(ps[i]).Some?
    ensures |pds| == |ps|
    ensures forall i :: 0 <= i < |ps| ==> decode(ps[i]) == Some(pds[i])
  {
    seq(|ps|, i requires 0 <= i < |ps| => decode(ps[i]).value)
  }

  /** Draws payloads in order until one fails to decode, which ends the scan; else it ends with ended. */
  function DecodeUntilBad(ps: seq<string>, decode: string -> Option<ProgressData>, ended: HeaderOutcome): ScanResult {
    var j := FirstBad(ps, decode);
    ScanResult(Decoded(ps[..j], decode), if j < |ps| then BadProgress(ps[j]) else ended)
  }

  /**
   * The scan, stated without the loop: of the progress headers before the
   * first blank line, every payload up to the first one that fails to
   * decode is drawn, in order; the scan then ends on that payload, else on
   * the blank line, else as the stream ends.
   */
  function Reference(msgs: seq<string>, end: StreamEnd, decode: string -> Option<ProgressData>): ScanResult {
    var k := FirstBlank(msgs);
    DecodeUntilBad(ProgressPayloads(msgs[..k]), decode, if k < |msgs| then HeadersEnded else EndOutcome(end))
  }

  /** The loop and the reference agree on every sequence of messages. */
  lemma {:induction false} ScanReference(msgs: seq<string>, end: StreamEnd, decode: string -> Option<ProgressData>)
    ensures Scan(msgs, end, decode) == Reference(msgs, end, decode)
    decreases |msgs|
  {
    if |msgs| == 0 || msgs[0] == [] {
      assert msgs[..0] == [];
      assert FirstBad([], decode) == 0;
    } else {
      ScanReference(msgs[1..], end, decode);
      assert msgs == [msgs[0]] + msgs[1..];
      ReferenceCons(msgs[0], msgs[1..], end, decode);
    }
  }

  /** The reference on a message that is not blank, followed by more. */
  lemma ReferenceCons(m: string, t: seq<string>, end: StreamEnd, decode: string -> Option<ProgressData>)
    requires m != []
    ensures Reference([m] + t, end, decode) ==
      match Consider(m, decode)
      case Stop(o) => ScanResult([], o)
      case Keep(pds) => Prepend(pds, Reference(t, end, decode))
  {
    var k' := FirstBlank(t);
    var ended := if k' < |t| then HeadersEnded else EndOutcome(end);
    var ps' := ProgressPayloads(t[..k']);
    BlockCons(m, t);
    PayloadsCons(m, t[..k']);
    assert Reference([m] + t, end, decode) == DecodeUntilBad(ProgressPayloads([m] + t[..k']), decode, ended);
    assert Reference(t, end, decode) == DecodeUntilBad(ps', decode, ended);
    if IsProgressHeader(m) {
      DecodeUntilBadCons(Payload(m), ps', decode, ended);
    } else {
      assert [] + ps' == ps';
    }
  }

  /** A message that is not blank joins the header block of the messages after it. */
  lemma BlockCons(m: string, t: seq<string>)
    requires m != []
    ensures FirstBlank([m] + t) == 1 + FirstBlank(t)
    ensures ([m] + t)[..FirstBlank([m] + t)] == [m] + t[..FirstBlank(t)]
  {
    assert ([m] + t)[1..] == t;
  }

  lemma DecodeUntilBadCons(p: string, ps: seq<string>, decode: string -> Option<ProgressData>, ended: HeaderOutcome)
    ensures DecodeUntilBad([p] + ps, decode, ended) ==
      match decode(p)
      case None => ScanResult([], BadProgress(p))
      case Some(pd) => Prepend([pd], DecodeUntilBad(ps, decode, ended))
  {
    var qs := [p] + ps;
    assert qs[1..] == ps;
    if decode(p).Some? {
      var j := FirstBad(ps, decode);
      assert FirstBad(qs, decode) == 1 + j;
      assert qs[..1 + j] == [p] + ps[..j];
      DecodedCons(p, ps[..j], decode);
    } else {
      assert qs[..0] == [];
    }
  }

  lemma PayloadsCons(m: string, t: seq<string>)
    ensures ProgressPayloads([m] + t) == (if IsProgressHeader(m) then [Payload(m)] else []) + ProgressPayloads(t)
  {
    assert ([m] + t)[1..] == t;
  }

  lemma DecodedCons(p: string, ps: seq<string>, decode: string -> Option<ProgressData>)
    requires decode(p).Some?
    requires forall i :: 0 <= i < |ps| ==> decode(ps[i]).Some?
    ensures Decoded([p] + ps, decode) == [decode(p).value] + Decoded(ps, decode)
  {
    var qs := [p] + ps;
    assert forall i :: 0 < i < |qs| ==> qs[i] == ps[i - 1];
  }

  /** Once a blank line has ended the headers, nothing after it, nor how the stream ends, matters. */
  lemma IgnoresAfterBlank(msgs: seq<string>, end: StreamEnd, end': StreamEnd, decode: string -> Option<ProgressData>)
    requires FirstBlank(msgs) < |msgs|
    ensures Scan(msgs, end, decode) == Scan(msgs[..FirstBlank(msgs) + 1], end', decode)
  {
    var k := FirstBlank(msgs);
    var cut := msgs[..k + 1];
    FirstBlankAt(cut, k);
    assert cut[..k] == msgs[..k];
    ScanReference(msgs, end, decode);
    ScanReference(cut, end', decode);
  }

  lemma {:induction false} FirstBlankAt(msgs: seq<string>, k: nat)
    requires k < |msgs| && msgs[k] == []
    requires forall i :: 0 <= i < k ==> msgs[i] != []
    ensures FirstBlank(msgs) == k
    decreases k
  {
    if 0 < k {
      assert msgs[1..][k - 1] == [];
      FirstBlankAt(msgs[1..], k - 1);
    }
  }

  /**
   * The response body is never scanned: when the header lines include a
   * blank one, whatever bytes follow them, and however the stream ends,
   * leave the scan as it is on the header lines alone.
   */
  lemma {:induction false} BodyNotScanned(ls: seq<string>, body: string, end: StreamEnd, end': StreamEnd, decode: string -> Option<ProgressData>)
    requires forall j :: 0 <= j < |ls| ==> IsLine(ls[j])
    requires FirstBlank(Messages(ls)) < |ls|
    ensures ScanText(Concat(ls) + body, end, decode) == Scan(Messages(ls), end', decode)
  {
    var more := SplitLines(body).lines;
    LinesThenBody(ls, body);
    MessagesAppend(ls, more);
    AppendAfterBlank(Messages(ls), Messages(more), end, end', decode);
  }

  /** Messages after a blank one, and the stream's end, leave the scan as it is. */
  lemma AppendAfterBlank(msgs: seq<string>, more: seq<string>, end: StreamEnd, end': StreamEnd, decode: string -> Option<ProgressData>)
    requires FirstBlank(msgs) < |msgs|
    ensures Scan(msgs + more, end, decode) == Scan(msgs, end', decode)
  {
    CutAfterBlank(msgs, more, end, end', decode);
    IgnoresAfterBlank(msgs, end', end', decode);
  }

  lemma CutAfterBlank(msgs: seq<string>, more: seq<string>, end: StreamEnd, end': StreamEnd, decode: string -> Option<ProgressData>)
    requires FirstBlank(msgs) < |msgs|
    ensures Scan(msgs + more, end, decode) == Scan(msgs[..FirstBlank(msgs) + 1], end', decode)
  {
    BlankPrefix(msgs, more);
    IgnoresAfterBlank(msgs + more, end, end', decode);
  }

  /** Messages appended after a blank one leave the header block as it was. */
  lemma BlankPrefix(msgs: seq<string>, more: seq<string>)
    requires FirstBlank(msgs) < |msgs|
    ensures FirstBlank(msgs + more) == FirstBlank(msgs)
    ensures (msgs + more)[..FirstBlank(msgs) + 1] == msgs[..FirstBlank(msgs) + 1]
  {
    var k := FirstBlank(msgs);
    var all := msgs + more;
    assert all[..k + 1] == msgs[..k + 1];
    assert forall i :: 0 <= i <= k ==> all[i] == msgs[i];
    FirstBlankAt(all, k);
  }

  /** Complete lines followed by more bytes split into those lines, then the lines of the bytes. */
  lemma LinesThenBody(ls: seq<string>, body: string)
    requires forall j :: 0 <= j < |ls| ==> IsLine(ls[j])
    ensures SplitLines(Concat(ls) + body).lines == ls + SplitLines(body).lines
  {
    var sb := SplitLines(body);
    SplitOfAppend(ls, sb, body);
    SplitLinesUnique(Split(ls + sb.lines, sb.rest), Concat(ls) + body);
  }

  lemma SplitOfAppend(ls: seq<string>, sb: Split, body: string)
    requires forall j :: 0 <= j < |ls| ==> IsLine(ls[j])
    requires SplitOf(sb, body)
    ensures SplitOf(Split(ls + sb.lines, sb.rest), Concat(ls) + body)
  {
    LinesAppend(ls, sb.lines);
    ConcatAppend(ls, sb.lines);
    JoinAssoc(Concat(ls), Concat(sb.lines), sb.rest);
  }

  lemma LinesAppend(a: seq<string>, b: seq<string>)
    requires forall j :: 0 <= j < |a| ==> IsLine(a[j])
    requires forall j :: 0 <= j < |b| ==> IsLine(b[j])
    ensures forall j :: 0 <= j < |a + b| ==> IsLine((a + b)[j])
  {
    forall j | 0 <= j < |a + b|
      ensures IsLine((a + b)[j])
    {
      if j >= |a| {
        assert (a + b)[j] == b[j - |a|];
      }
    }
  }
}

=== FILE: reader.dfy ===
/**
 * The reader goroutine of queryToStdout, as the list of events it sends.
 *
 * It waits for the HTTP request, then (unless the context is already done)
 * sends the status code and reads the body with ReadString('\n'): each
 * complete line becomes a Data event, end of file becomes Done, and any
 * other read error becomes a Failure that stops it. Before the first send
 * and before every read it looks at the context and stops silently once
 * the context is done.
 */
module ResultReader {
  import opened Text
  import opened Events

  /** How the body stream ends: at end of file, or with a read error. */
  datatype StreamEnd = Eof | ReadError(err: string)

  /** What http.DefaultClient.Do gave the reader: an error, or a response with its body. */
  datatype DoResult = DoFailed(err: string) | Responded(status: int, body: string, end: StreamEnd)

  /**
   * When the reader first finds the context done: never, or at its k-th
   * look. Look 0 follows the request; look i + 1 comes before read i.
   */
  datatype Cancellation = NotCancelled | SeenAtCheck(k: nat)

  /** The event a stream end turns into. */
  function EndEvent(end: StreamEnd): (e: Event)
    ensures IsTerminal(e) && !e.Cancel?
  {
    match end
    case Eof => Done
    case ReadError(err) => Failure(err)
  }

  /** The read loop from read i on, over the complete lines of the body. */
  function ReadLoop(lines: seq<string>, i: nat, end: StreamEnd, cancel: Cancellation): seq<Event>
    requires i <= |lines|
    decreases |lines| - i
  {
    if cancel == SeenAtCheck(i + 1) then []
    else if i < |lines| then [Data(lines[i])] + ReadLoop(lines, i + 1, end, cancel)
    else [EndEvent(end)]
  }

  /** Everything the reader sends, in order. */
  function ReaderEvents(result: DoResult, cancel: Cancellation): seq<Event> {
    if cancel == SeenAtCheck(0) then []
    else
      match result
      case DoFailed(err) => [Failure(err)]
      case Responded(code, body, end) => [Status(code)] + ReadLoop(SplitLines(body).lines, 0, end, cancel)
  }

  lemma DataEventsCons(lines: seq<string>, i: nat, j: nat)
    requires i < j <= |lines|
    ensures DataEvents(lines[i..j]) == [Data(lines[i])] + DataEvents(lines[i + 1..j])
  {
    var a := DataEvents(lines[i..j]);
    var b := [Data(lines[i])] + DataEvents(lines[i + 1..j]);
    assert |a| == |b|;
    forall n | 0 <= n < |a|
      ensures a[n] == b[n]
    {
      if 0 < n {
        assert b[n] == DataEvents(lines[i + 1..j])[n - 1];
      }
    }
  }

  /** Without a look that stops it, the read loop sends the remaining lines and then the stream end. */
  lemma {:induction false} ReadLoopToEnd(lines: seq<string>, i: nat, end: StreamEnd, cancel: Cancellation)
    requires i <= |lines|
    requires !(cancel.SeenAtCheck? && i + 1 <= cancel.k <= |lines| + 1)
    ensures ReadLoop(lines, i, end, cancel) == DataEvents(lines[i..]) + [EndEvent(end)]
    decreases |lines| - i
  {
    if i < |lines| {
      ReadLoopToEnd(lines, i + 1, end, cancel);
      DataEventsCons(lines, i, |lines|);
      assert lines[i..|lines|] == lines[i..];
      assert lines[i + 1..|lines|] == lines[i + 1..];
    } else {
      assert lines[i..] == [];
    }
  }

  /** A look at look number k that finds the context done ends the loop after the lines read so far. */
  lemma {:induction false} ReadLoopCut(lines: seq<string>, i: nat, end: StreamEnd, k: nat)
    requires i + 1 <= k <= |lines| + 1
    ensures ReadLoop(lines, i, end, SeenAtCheck(k)) == DataEvents(lines[i..k - 1])
    decreases |lines| - i
  {
    if k == i + 1 {
      assert lines[i..i] == [];
    } else {
      ReadLoopCut(lines, i + 1, end, k);
      DataEventsCons(lines, i, k - 1);
    }
  }

  /**
   * The reader's output in closed form: after a response, the status code,
   * one Data event per complete body line, then the stream end; a look that
   * finds the context done cuts the list short before the end event.
   */
  lemma ReaderForm(result: DoResult, cancel: Cancellation)
    ensures result.Responded? && cancel != SeenAtCheck(0) ==>
              var lines := SplitLines(result.body).lines;
              ReaderEvents(result, cancel) ==
                if cancel.SeenAtCheck? && cancel.k <= |lines| + 1
                then [Status(result.status)] + DataEvents(lines[..cancel.k - 1])
                else [Status(result.status)] + DataEvents(lines) + [EndEvent(result.end)]
    ensures result.DoFailed? && cancel != SeenAtCheck(0) ==> ReaderEvents(result, cancel) == [Failure(result.err)]
    ensures cancel == SeenAtCheck(0) ==> ReaderEvents(result, cancel) == []
  {
    if result.Responded? && cancel != SeenAtCheck(0) {
      var lines := SplitLines(result.body).lines;
      if cancel.SeenAtCheck? && cancel.k <= |lines| + 1 {
        ReadLoopCut(lines, 0, result.end, cancel.k);
      } else {
        ReadLoopToEnd(lines, 0, result.end, cancel);
      }
      assert lines[0..] == lines;
    }
  }

  lemma {:induction false} DataEventsText(lines: seq<string>)
    ensures DataText(DataEvents(lines)) == Concat(lines)
    decreases |lines|
  {
    if 0 < |lines| {
      assert DataEvents(lines)[1..] == DataEvents(lines[1..]);
      DataEventsText(lines[1..]);
    }
  }

  lemma {:induction false} DataTextAppend(a: seq<Event>, b: seq<Event>)
    ensures DataText(a + b) == DataText(a) + DataText(b)
    decreases |a|
  {
    if |a| == 0 {
      assert a + b == b;
    } else {
      assert (a + b)[1..] == a[1..] + b;
      DataTextAppend(a[1..], b);
    }
  }

  /** The events of an uncancelled read of a response, in closed form. */
  lemma ReaderWhole(code: int, body: string, end: StreamEnd)
    ensures ReaderEvents(Responded(code, body, end), NotCancelled)
            == [Status(code)] + DataEvents(SplitLines(body).lines) + [EndEvent(end)]
  {
    ReaderForm(Responded(code, body, end), NotCancelled);
  }

  /** The status code is the first event the reader sends, and the only status. */
  lemma ReaderStatusFirst(code: int, body: string, end: StreamEnd)
    ensures var evs := ReaderEvents(Responded(code, body, end), NotCancelled);
      && 2 <= |evs| && evs[0] == Status(code)
      && (forall j :: 1 <= j < |evs| ==> !evs[j].Status?)
  {
    var data := DataEvents(SplitLines(body).lines);
    var evs := ReaderEvents(Responded(code, body, end), NotCancelled);
    ReaderWhole(code, body, end);
    assert forall j :: 1 <= j < |evs| - 1 ==> evs[j] == data[j - 1];
  }

  /** Every Data payload is one complete line: it ends in a newline and holds no other. */
  lemma ReaderDataLines(code: int, body: string, end: StreamEnd)
    ensures var evs := ReaderEvents(Responded(code, body, end), NotCancelled);
      forall j :: 0 <= j < |evs| && evs[j].Data? ==> IsLine(evs[j].text)
  {
    var lines := SplitLines(body).lines;
    var data := DataEvents(lines);
    var evs := ReaderEvents(Responded(code, body, end), NotCancelled);
    ReaderWhole(code, body, end);
    forall j | 0 <= j < |evs| && evs[j].Data?
      ensures IsLine(evs[j].text)
    {
      assert 0 < j < |evs| - 1;
      assert evs[j] == data[j - 1];
    }
  }

  /**
   * The Data payloads, joined, are the longest newline-terminated prefix of
   * the body: a last line without a newline is dropped at end of file.
   */
  lemma ReaderDataIsTerminatedPrefix(code: int, body: string, end: StreamEnd)
    ensures LongestTerminatedPrefix(DataText(ReaderEvents(Responded(code, body, end), NotCancelled)), body)
  {
    var lines := SplitLines(body).lines;
    var data := DataEvents(lines);
    ReaderWhole(code, body, end);
    DataTextAppend([Status(code)] + data, [EndEvent(end)]);
    DataTextAppend([Status(code)], data);
    DataEventsText(lines);
    LinesAreTerminatedPrefix(body);
  }

  /** The stream end is the last event and the only terminal one. */
  lemma ReaderEndsOnce(code: int, body: string, end: StreamEnd)
    ensures var evs := ReaderEvents(Responded(code, body, end), NotCancelled);
      && 0 < |evs| && evs[|evs| - 1] == EndEvent(end)
      && FirstTerminal(evs) == |evs| - 1
  {
    var data := DataEvents(SplitLines(body).lines);
    var evs := ReaderEvents(Responded(code, body, end), NotCancelled);
    ReaderWhole(code, body, end);
    assert forall j :: 1 <= j < |evs| - 1 ==> evs[j] == data[j - 1];
    FirstTerminalAt(evs, |evs| - 1);
  }

  lemma {:induction false} FirstTerminalAt(evs: seq<Event>, k: nat)
    requires k < |evs| && IsTerminal(evs[k])
    requires forall j :: 0 <= j < k ==> !IsTerminal(evs[j])
    ensures FirstTerminal(evs) == k
  {
    var f := FirstTerminal(evs);
    assert f <= k by {
      assert k < |evs| && IsTerminal(evs[k]);
    }
    assert f >= k by {
      assert f < |evs| ==> IsTerminal(evs[f]);
    }
  }

  /**
   * A cancellation seen by the reader only ever shortens what it sends: the
   * list is a prefix of the uncancelled one, and when it is shorter it holds
   * no terminal event (the reader stops silently).
   */
  lemma CancelledReaderIsPrefix(result: DoResult, k: nat)
    ensures var full := ReaderEvents(result, NotCancelled);
            var cut := ReaderEvents(result, SeenAtCheck(k));
      && cut <= full
      && (|cut| < |full| ==> forall j :: 0 <= j < |cut| ==> !IsTerminal(cut[j]))
  {
    ReaderForm(result, NotCancelled);
    ReaderForm(result, SeenAtCheck(k));
    if result.Responded? && 0 < k {
      var lines := SplitLines(result.body).lines;
      if k <= |lines| + 1 {
        CutIsPrefix(result.status, lines, k - 1, result.end);
      }
    }
  }

  lemma CutIsPrefix(code: int, lines: seq<string>, n: nat, end: StreamEnd)
    requires n <= |lines|
    ensures var cut := [Status(code)] + DataEvents(lines[..n]);
      && cut <= [Status(code)] + DataEvents(lines) + [EndEvent(end)]
      && forall j :: 0 <= j < |cut| ==> !IsTerminal(cut[j])
  {
    var cut := [Status(code)] + DataEvents(lines[..n]);
    var full := [Status(code)] + DataEvents(lines) + [EndEvent(end)];
    assert forall j :: 1 <= j < |cut| ==> cut[j] == Data(lines[j - 1]);
    assert forall j :: 1 <= j < |cut| ==> full[j] == Data(lines[j - 1]);
  }
}

=== FILE: service.dfy ===
/**
 * Decoding of the two side-channel lookups the client makes through
 * serviceRequest: the progress of a running query (getProgressInfo, read
 * from system.processes) and the statistics of a finished one
 * (getQueryStats, read from system.query_log).
 *
 * serviceRequest itself is a collaborator: it is passed in as a function
 * from the lookup it is sent to the table (or the error) it answers with.
 */
module Service {
  import opened Wrappers
  import opened Strconv

  /** A result table as serviceRequest returns it: rows of text columns. */
  type Table = seq<seq<string>>

  /** What serviceRequest answers: the table, or the error it failed with. */
  datatype Response = Rows(table: Table) | RequestFailed(err: string)

  datatype ServiceError = RequestError(err: string) | BadResponseDimensions

  /** Go's (value, err) result pair. */
  datatype Reply<T> = Reply(value: T, err: Option<ServiceError>)

  /**
   * The elapsed column is a float64 read with ParseFloat, which the model
   * does not interpret: it keeps the column text ParseFloat was given, or
   * notes that the field kept its zero value.
   */
  datatype Elapsed = ZeroElapsed | ElapsedText(text: string)

  datatype ProgressInfo = ProgressInfo(
    elapsed: Elapsed,
    readRows: u64,
    readBytes: u64,
    totalRowsApprox: u64,
    writtenRows: u64,
    writtenBytes: u64,
    memoryUsage: i64)

  const ZeroProgress := ProgressInfo(ZeroElapsed, 0, 0, 0, 0, 0, 0)

  datatype QueryStats = QueryStats(
    queryDurationMs: u64,
    readRows: u64,
    readBytes: u64,
    writtenRows: u64,
    writtenBytes: u64,
    resultRows: u64,
    resultBytes: u64,
    memoryUsage: u64,
    exception: string,
    stackTrace: string)

  const ZeroStats := QueryStats(0, 0, 0, 0, 0, 0, 0, 0, "", "")

  /** Columns the progress lookup selects. */
  const ProgressColumns := 7

  /** Columns the statistics lookup selects (the last one, type, is not decoded). */
  const StatsColumns := 11

  /** The table holds exactly one row of exactly the given number of columns. */
  predicate Shaped(t: Table, columns: nat) {
    |t| == 1 && |t[0]| == columns
  }

  /**
   * The lookups the core sends through serviceRequest. A lookup stands for
   * its SQL text, Sql(l); serviceRequest is modelled as a function of the lookup.
   */
  datatype Lookup = ProgressLookup(queryID: string) | StatsLookup(queryID: string)

  /** The SQL text of the progress lookup, up to the query id. */
  const ProgressSelect := "select " + "elapsed" + ",read_rows,read_bytes,totalRows_approx,written_rows,written_bytes,memory_usage from system.processes where queryID='"

  /** The SQL text of the statistics lookup, up to the query id. */
  const StatsSelect := "select " + "query_duration_ms" + ",read_rows,read_bytes,written_rows,written_bytes,result_rows,result_bytes,memory_usage,exception,stack_trace,type from system.query_log where queryID='"

  /** What follows the query id in the statistics lookup. */
  const StatsTail := "' and type>1"

  /** The query fmt.Sprintf builds for a lookup, with the id put in verbatim. */
  function Sql(l: Lookup): string {
    match l
    case ProgressLookup(id) => ProgressSelect + id + "'"
    case StatsLookup(id) => StatsSelect + id + StatsTail
  }

  /**
   * Two lookups have the same SQL text exactly when they are the same
   * lookup, so a serviceRequest that answers by the text is a function of
   * the lookup.
   */
  lemma SqlDeterminesLookup(a: Lookup, b: Lookup)
    ensures Sql(a) == Sql(b) <==> a == b
  {
    if Sql(a) == Sql(b) {
      SqlKind(a);
      SqlKind(b);
      SqlId(a);
      SqlId(b);
    }
  }

  /** The eighth character of the text tells the two lookups apart. */
  lemma SqlKind(l: Lookup)
    ensures 7 < |Sql(l)| && Sql(l)[7] == (if l.ProgressLookup? then 'e' else 'q')
  {
  }

  /** The query id sits between the fixed head and tail of the text. */
  lemma SqlId(l: Lookup)
    ensures l.ProgressLookup? ==> |ProgressSelect| + 1 <= |Sql(l)| && Sql(l)[|ProgressSelect|..|Sql(l)| - 1] == l.queryID
    ensures l.StatsLookup? ==> |StatsSelect| + |StatsTail| <= |Sql(l)| && Sql(l)[|StatsSelect|..|Sql(l)| - |StatsTail|] == l.queryID
  {
  }

  /**
   * getProgressInfo: a failed lookup passes its error through, a table that
   * is not one row of seven columns is refused, and otherwise the columns are
   * decoded by position with the parse errors thrown away.
   */
  function GetProgressInfo(serviceRequest: Lookup -> Response, queryID: string): (r: Reply<ProgressInfo>)
    ensures var resp := serviceRequest(ProgressLookup(queryID));
      && (resp.RequestFailed? ==> r == Reply(ZeroProgress, Some(RequestError(resp.err))))
      && (resp.Rows? && !Shaped(resp.table, ProgressColumns) ==> r == Reply(ZeroProgress, Some(BadResponseDimensions)))
      && (r.err == None <==> resp.Rows? && Shaped(resp.table, ProgressColumns))
      && (r.err == None ==>
            var row := resp.table[0];
            && r.value.elapsed == ElapsedText(row[0])
            && r.value.readRows == UintReference(row[1]).value
            && r.value.readBytes == UintReference(row[2]).value
            && r.value.totalRowsApprox == UintReference(row[3]).value
            && r.value.writtenRows == UintReference(row[4]).value
            && r.value.writtenBytes == UintReference(row[5]).value
            && r.value.memoryUsage == ParseInt(row[6]).value)
  {
    match serviceRequest(ProgressLookup(queryID))
    case RequestFailed(e) => Reply(ZeroProgress, Some(RequestError(e)))
    case Rows(data) =>
      if !Shaped(data, ProgressColumns) then Reply(ZeroProgress, Some(BadResponseDimensions))
      else
        var row := data[0];
        Reply(ProgressInfo(
                ElapsedText(row[0]),
                ParseUint(row[1]).value,
                ParseUint(row[2]).value,
                ParseUint(row[3]).value,
                ParseUint(row[4]).value,
                ParseUint(row[5]).value,
                ParseInt(row[6]).value),
              None)
  }

  /** The row the server would send for a given progress reading. */
  function ProgressRow(pi: ProgressInfo): seq<string>
    requires pi.elapsed.ElapsedText?
  {
    [pi.elapsed.text, FormatUint(pi.readRows), FormatUint(pi.readBytes), FormatUint(pi.totalRowsApprox),
     FormatUint(pi.writtenRows), FormatUint(pi.writtenBytes), FormatInt(pi.memoryUsage)]
  }

  /** Every progress reading survives being sent as a one-row table and decoded. */
  lemma ProgressRoundTrip(serviceRequest: Lookup -> Response, queryID: string, pi: ProgressInfo)
    requires pi.elapsed.ElapsedText?
    requires serviceRequest(ProgressLookup(queryID)) == Rows([ProgressRow(pi)])
    ensures GetProgressInfo(serviceRequest, queryID) == Reply(pi, None)
  {
    ParseFormatUint(pi.readRows);
    ParseFormatUint(pi.readBytes);
    ParseFormatUint(pi.totalRowsApprox);
    ParseFormatUint(pi.writtenRows);
    ParseFormatUint(pi.writtenBytes);
    ParseFormatInt(pi.memoryUsage);
  }

  /** A lookup answer with the seven expected columns decodes field by field. */
  lemma ProgressExample(serviceRequest: Lookup -> Response, queryID: string)
    requires serviceRequest(ProgressLookup(queryID)) == Rows([["1.5", "100", "2048", "1000", "0", "0", "4096"]])
    ensures GetProgressInfo(serviceRequest, queryID)
            == Reply(ProgressInfo(ElapsedText("1.5"), 100, 2048, 1000, 0, 0, 4096), None)
  {
    var pi := ProgressInfo(ElapsedText("1.5"), 100, 2048, 1000, 0, 0, 4096);
    assert FormatUint(100) == "100" by {
      assert FormatUint(1) == "1";
      assert FormatUint(10) == "10";
    }
    assert FormatUint(2048) == "2048" by {
      assert FormatUint(2) == "2";
      assert FormatUint(20) == "20";
      assert FormatUint(204) == "204";
    }
    assert FormatUint(1000) == "1000" by {
      assert FormatUint(1) == "1";
      assert FormatUint(10) == "10";
      assert FormatUint(100) == "100";
    }
    assert FormatInt(4096) == "4096" by {
      assert FormatUint(4) == "4";
      assert FormatUint(40) == "40";
      assert FormatUint(409) == "409";
    }
    assert ProgressRow(pi) == ["1.5", "100", "2048", "1000", "0", "0", "4096"];
    ProgressRoundTrip(serviceRequest, queryID, pi);
  }

  /** Columns that are not plain decimal numbers decode as 0, and the lookup still succeeds. */
  lemma ProgressBadColumns(serviceRequest: Lookup -> Response, queryID: string)
    requires serviceRequest(ProgressLookup(queryID)) == Rows([["x", "1e3", "", "-5", "+7", "7", "-"]])
    ensures GetProgressInfo(serviceRequest, queryID)
            == Reply(ProgressInfo(ElapsedText("x"), 0, 0, 0, 0, 7, 0), None)
  {
    assert DigitRun("1e3") == 1;
    assert DigitRun("7") == 1;
    assert Unsigned("-") == "";
  }

  /**
   * What getQueryStats ends in: it returns its (value, err) pair, or an
   * index out of range stops it with a runtime panic at the given index.
   */
  datatype StatsOutcome = Returned(reply: Reply<QueryStats>) | IndexPanic(index: nat)

  /**
   * The decoding statements of getQueryStats, run on one row: they read
   * columns 0 to 9 in order, so a row with fewer than ten columns panics at
   * the first missing index.
   */
  function DecodeStatsRow(row: seq<string>): (r: StatsOutcome)
    ensures r.IndexPanic? <==> |row| < 10
    ensures r.IndexPanic? ==> r.index == |row|
    ensures r.Returned? ==>
              && r.reply.err == None
              && r.reply.value.queryDurationMs == UintReference(row[0]).value
              && r.reply.value.readRows == UintReference(row[1]).value
              && r.reply.value.readBytes == UintReference(row[2]).value
              && r.reply.value.writtenRows == UintReference(row[3]).value
              && r.reply.value.writtenBytes == UintReference(row[4]).value
              && r.reply.value.resultRows == UintReference(row[5]).value
              && r.reply.value.resultBytes == UintReference(row[6]).value
              && r.reply.value.memoryUsage == UintReference(row[7]).value
              && r.reply.value.exception == row[8]
              && r.reply.value.stackTrace == row[9]
  {
    if |row| < 10 then IndexPanic(|row|)
    else
      Returned(Reply(QueryStats(
                       ParseUint(row[0]).value,
                       ParseUint(row[1]).value,
                       ParseUint(row[2]).value,
                       ParseUint(row[3]).value,
                       ParseUint(row[4]).value,
                       ParseUint(row[5]).value,
                       ParseUint(row[6]).value,
                       ParseUint(row[7]).value,
                       row[8],
                       row[9]),
                     None))
  }

  /**
   * getQueryStats as the source has it: the shape check demands seven
   * columns, yet decoding reads up to column 9. Every table the check lets
   * through therefore panics at index 7, and a successful return cannot happen.
   */
  function GetQueryStatsAsWritten(serviceRequest: Lookup -> Response, queryID: string): (r: StatsOutcome)
    ensures !(r.Returned? && r.reply.err == None)
    ensures var resp := serviceRequest(StatsLookup(queryID));
      && (resp.RequestFailed? ==> r == Returned(Reply(ZeroStats, Some(RequestError(resp.err)))))
      && (resp.Rows? && !Shaped(resp.table, 7) ==> r == Returned(Reply(ZeroStats, Some(BadResponseDimensions))))
      && (resp.Rows? && Shaped(resp.table, 7) ==> r == IndexPanic(7))
  {
    match serviceRequest(StatsLookup(queryID))
    case RequestFailed(e) => Returned(Reply(ZeroStats, Some(RequestError(e))))
    case Rows(data) =>
      if |data| != 1 || |data[0]| != 7 then Returned(Reply(ZeroStats, Some(BadResponseDimensions)))
      else DecodeStatsRow(data[0])
  }

  /** A concrete well-formed seven-column answer, and the panic it leads to. */
  lemma StatsAsWrittenPanics(serviceRequest: Lookup -> Response, queryID: string)
    requires serviceRequest(StatsLookup(queryID)) == Rows([["12", "100", "2048", "0", "0", "1", "8"]])
    ensures GetQueryStatsAsWritten(serviceRequest, queryID) == IndexPanic(7)
  {
  }

  /**
   * getQueryStats with the shape check matched to the eleven columns the
   * lookup selects: it never indexes out of range, and it succeeds exactly
   * when the answer is one row of eleven columns.
   */
  function GetQueryStats(serviceRequest: Lookup -> Response, queryID: string): (r: StatsOutcome)
    ensures r.Returned?
    ensures var resp := serviceRequest(StatsLookup(queryID));
      && (resp.RequestFailed? ==> r.reply == Reply(ZeroStats, Some(RequestError(resp.err))))
      && (resp.Rows? && !Shaped(resp.table, StatsColumns) ==> r.reply == Reply(ZeroStats, Some(BadResponseDimensions)))
      && (r.reply.err == None <==> resp.Rows? && Shaped(resp.table, StatsColumns))
      && (r.reply.err == None ==>
            var row := resp.table[0];
            && r.reply.value.queryDurationMs == UintReference(row[0]).value
            && r.reply.value.readRows == UintReference(row[1]).value
            && r.reply.value.readBytes == UintReference(row[2]).value
            && r.reply.value.writtenRows == UintReference(row[3]).value
            && r.reply.value.writtenBytes == UintReference(row[4]).value
            && r.reply.value.resultRows == UintReference(row[5]).value
            && r.reply.value.resultBytes == UintReference(row[6]).value
            && r.reply.value.memoryUsage == UintReference(row[7]).value
            && r.reply.value.exception == row[8]
            && r.reply.value.stackTrace == row[9])
  {
    match serviceRequest(StatsLookup(queryID))
    case RequestFailed(e) => Returned(Reply(ZeroStats, Some(RequestError(e))))
    case Rows(data) =>
      if !Shaped(data, StatsColumns) then Returned(Reply(ZeroStats, Some(BadResponseDimensions)))
      else DecodeStatsRow(data[0])
  }

  /** The row the query log would send for given statistics; kind is the undecoded type column. */
  function StatsRow(qs: QueryStats, kind: string): seq<string> {
    [FormatUint(qs.queryDurationMs), FormatUint(qs.readRows), FormatUint(qs.readBytes),
     FormatUint(qs.writtenRows), FormatUint(qs.writtenBytes), FormatUint(qs.resultRows),
     FormatUint(qs.resultBytes), FormatUint(qs.memoryUsage), qs.exception, qs.stackTrace, kind]
  }

  /** With the corrected shape check, statistics survive being sent as a one-row table and decoded. */
  lemma StatsRoundTrip(serviceRequest: Lookup -> Response, queryID: string, qs: QueryStats, kind: string)
    requires serviceRequest(StatsLookup(queryID)) == Rows([StatsRow(qs, kind)])
    ensures GetQueryStats(serviceRequest, queryID) == Returned(Reply(qs, None))
  {
    ParseFormatUint(qs.queryDurationMs);
    ParseFormatUint(qs.readRows);
    ParseFormatUint(qs.readBytes);
    ParseFormatUint(qs.writtenRows);
    ParseFormatUint(qs.writtenBytes);
    ParseFormatUint(qs.resultRows);
    ParseFormatUint(qs.resultBytes);
    ParseFormatUint(qs.memoryUsage);
  }

  /** The same answer sent in the as-written shape check's own terms never decodes there. */
  lemma StatsRowRefusedAsWritten(serviceRequest: Lookup -> Response, queryID: string, qs: QueryStats, kind: string)
    requires serviceRequest(StatsLookup(queryID)) == Rows([StatsRow(qs, kind)])
    ensures GetQueryStatsAsWritten(serviceRequest, queryID) == Returned(Reply(ZeroStats, Some(BadResponseDimensions)))
  {
  }
}

=== FILE: session.dfy ===
/**
 * The pieces of queryToStdout put together: the progress ticker
 * goroutine, the reader goroutine and the coordinator loop, with the
 * arrival order at the select as the one input that stands for the
 * scheduling of the goroutines.
 */
module Session {
  import opened Wrappers
  import opened Text
  import opened Service
  import opened Events
  import opened ResultReader
  import opened Coordinator

  /**
   * The ticker goroutine: at each tick it looks up the query's progress
   * and sends the reading only when the lookup succeeded. Each tick is given
   * as the serviceRequest behaviour at that moment.
   */
  function PollerEvents(ticks: seq<Lookup -> Response>, queryID: string): (evs: seq<Event>)
    ensures |evs| <= |ticks|
    ensures forall j :: 0 <= j < |evs| ==> evs[j].Progress?
    decreases |ticks|
  {
    if |ticks| == 0 then []
    else
      var reply := GetProgressInfo(ticks[0], queryID);
      (if reply.err == None then [Progress(reply.value)] else []) + PollerEvents(ticks[1..], queryID)
  }

  /**
   * A tick whose lookup fails or answers with the wrong dimensions sends
   * nothing: the poller just goes on with the next tick.
   */
  lemma FailedTickSkipped(tick: Lookup -> Response, rest: seq<Lookup -> Response>, queryID: string)
    requires tick(ProgressLookup(queryID)).RequestFailed?
          || !Shaped(tick(ProgressLookup(queryID)).table, ProgressColumns)
    ensures PollerEvents([tick] + rest, queryID) == PollerEvents(rest, queryID)
  {
    assert ([tick] + rest)[1..] == rest;
  }

  /**
   * A tick whose lookup answers with one row of seven columns sends the
   * decoded reading, ahead of whatever the later ticks send.
   */
  lemma SuccessfulTickSent(tick: Lookup -> Response, rest: seq<Lookup -> Response>, queryID: string)
    requires tick(ProgressLookup(queryID)).Rows?
    requires Shaped(tick(ProgressLookup(queryID)).table, ProgressColumns)
    ensures PollerEvents([tick] + rest, queryID)
            == [Progress(GetProgressInfo(tick, queryID).value)] + PollerEvents(rest, queryID)
  {
    assert ([tick] + rest)[1..] == rest;
  }

  /**
   * A successful run: whatever progress readings arrive in between, when
   * the other events arrive exactly as the reader sends them for a response
   * that ends at end of file, the run completes, returns the response's
   * status, and stdout is the body up to and including its last newline.
   */
  lemma ReaderRunCompletes(arrival: seq<Event>, code: int, body: string, queryID: string, killQuery: string -> bool)
    requires WithoutProgress(arrival) == ReaderEvents(Responded(code, body, Eof), NotCancelled)
    ensures var r := QueryToStdout(arrival, queryID, killQuery);
      && r.outcome == Completed
      && r.status == code
      && LongestTerminatedPrefix(StdoutText(r.effects), body)
      && KillCalls(r.effects) == []
  {
    ProgressIndependent(arrival, queryID, killQuery);
    CompletedReaderRun(code, body, queryID, killQuery);
  }

  /** The run over exactly the reader's events of a response that ends at end of file. */
  lemma CompletedReaderRun(code: int, body: string, queryID: string, killQuery: string -> bool)
    ensures var r := QueryToStdout(ReaderEvents(Responded(code, body, Eof), NotCancelled), queryID, killQuery);
      && r.outcome == Completed
      && r.status == code
      && LongestTerminatedPrefix(StdoutText(r.effects), body)
  {
    CompleteReaderRun(code, body);
  }

  /** What the loop needs to know of the events of a reader that reaches end of file. */
  lemma CompleteReaderRun(code: int, body: string)
    ensures var evs := ReaderEvents(Responded(code, body, Eof), NotCancelled);
      && Handled(evs) == evs
      && LastStatus(evs, -1) == code
      && FirstTerminal(evs) < |evs| && evs[FirstTerminal(evs)] == Done
      && LongestTerminatedPrefix(DataText(evs), body)
  {
    CompleteReaderEnds(code, body);
    CompleteReaderStatus(code, body);
    ReaderDataIsTerminatedPrefix(code, body, Eof);
  }

  /** Such a reader's last event is Done, the first terminal one, so every event is handled. */
  lemma CompleteReaderEnds(code: int, body: string)
    ensures var evs := ReaderEvents(Responded(code, body, Eof), NotCancelled);
      && FirstTerminal(evs) == |evs| - 1 && evs[|evs| - 1] == Done
      && Handled(evs) == evs
  {
    var evs := ReaderEvents(Responded(code, body, Eof), NotCancelled);
    ReaderEndsOnce(code, body, Eof);
    assert evs[..|evs|] == evs;
  }

  /** Such a reader's only status is the response's. */
  lemma CompleteReaderStatus(code: int, body: string)
    ensures LastStatus(ReaderEvents(Responded(code, body, Eof), NotCancelled), -1) == code
  {
    ReaderStatusFirst(code, body, Eof);
    LastStatusOfFirst(ReaderEvents(Responded(code, body, Eof), NotCancelled), -1);
  }

  /** A list whose only status is its first event has that status as its last. */
  lemma {:induction false} LastStatusOfFirst(evs: seq<Event>, d: int)
    requires 0 < |evs| && evs[0].Status?
    requires forall j :: 1 <= j < |evs| ==> !evs[j].Status?
    ensures LastStatus(evs, d) == evs[0].code
    decreases |evs|
  {
    if 1 < |evs| {
      LastStatusOfFirst(evs[..|evs| - 1], d);
    }
  }

  /** A reader that fails while reading makes the run fatal, whatever progress arrives. */
  lemma ReaderRunFails(arrival: seq<Event>, code: int, body: string, err: string, queryID: string, killQuery: string -> bool)
    requires WithoutProgress(arrival) == ReaderEvents(Responded(code, body, ReadError(err)), NotCancelled)
    ensures QueryToStdout(arrival, queryID, killQuery).outcome == Fatal(err)
  {
    var evs := ReaderEvents(Responded(code, body, ReadError(err)), NotCancelled);
    ProgressIndependent(arrival, queryID, killQuery);
    FailedReaderRun(code, body, err);
    assert QueryToStdout(evs, queryID, killQuery).outcome == OutcomeOf(evs, queryID, killQuery);
  }

  /** What the loop needs to know of the events of a reader whose read fails. */
  lemma FailedReaderRun(code: int, body: string, err: string)
    ensures var evs := ReaderEvents(Responded(code, body, ReadError(err)), NotCancelled);
      && FirstTerminal(evs) < |evs|
      && evs[FirstTerminal(evs)] == Failure(err)
  {
    ReaderEndsOnce(code, body, ReadError(err));
  }

  /** Status 200 and the one line "1\n": the run completes with 200 and stdout is exactly "1\n". */
  lemma SelectOneExample(queryID: string, killQuery: string -> bool)
    ensures var r := QueryToStdout([Status(200), Data("1\n"), Done], queryID, killQuery);
      r.outcome == Completed && r.status == 200 && StdoutText(r.effects) == "1\n"
  {
    var evs := [Status(200), Data("1\n"), Done];
    assert FirstTerminal(evs) == 2 by {
      assert FirstTerminal(evs[2..]) == 0;
      assert evs[1..][1..] == evs[2..];
    }
    assert Handled(evs) == evs;
    assert DataText(evs) == "1\n" by {
      assert evs[1..][1..][1..] == [];
    }
    assert evs[..2][..1] == [Status(200)];
  }

  /** Cancellation before any data, with killQuery answering false: the run is cancelled and ends with "failure!". */
  lemma CancelBeforeDataExample(queryID: string, killQuery: string -> bool)
    requires !killQuery(queryID)
    ensures var r := QueryToStdout([Status(200), Cancel, Data("1\n")], queryID, killQuery);
      && r.outcome == Cancelled(false)
      && StdoutText(r.effects) == ""
      && KillCalls(r.effects) == [queryID]
      && r.effects[|r.effects| - 1] == Stderr(KillVerdict(false))
      && NoticeText(KillVerdict(false)) == "failure!\n\n"
  {
    CancelBeforeDataHandled();
    CancelledRun([Status(200), Cancel, Data("1\n")], queryID, killQuery);
  }

  /** A run whose first terminal event is a cancellation, with no data handled before it. */
  lemma CancelledRun(evs: seq<Event>, queryID: string, killQuery: string -> bool)
    requires FirstTerminal(evs) < |evs| && evs[FirstTerminal(evs)] == Cancel
    requires DataText(Handled(evs)) == ""
    ensures var r := QueryToStdout(evs, queryID, killQuery);
      && r.outcome == Cancelled(killQuery(queryID))
      && StdoutText(r.effects) == ""
      && KillCalls(r.effects) == [queryID]
      && r.effects[|r.effects| - 1] == Stderr(KillVerdict(killQuery(queryID)))
  {
  }

  /** In that arrival order the cancellation is the first terminal event, and no data is handled. */
  lemma CancelBeforeDataHandled()
    ensures var evs := [Status(200), Cancel, Data("1\n")];
      && FirstTerminal(evs) == 1
      && Handled(evs) == [Status(200), Cancel]
      && DataText(Handled(evs)) == ""
  {
    var evs := [Status(200), Cancel, Data("1\n")];
    assert FirstTerminal(evs) == 1 by {
      assert FirstTerminal(evs[1..]) == 0;
    }
    assert Handled(evs) == [Status(200), Cancel];
    assert DataText([Status(200), Cancel]) == "" by {
      assert [Status(200), Cancel][1..][1..] == [];
    }
  }
}

=== FILE: strconv.dfy ===
/**
 * The two conversions of Go's strconv package that the progress and
 * statistics decoders rely on: ParseUint(s, 10, 64) and ParseInt(s, 10, 64).
 *
 * Go scans the text left to right and stops at the first problem: a byte
 * that is not a decimal digit gives 0 with ErrSyntax, an accumulated value
 * that no longer fits in 64 bits gives the largest value with ErrRange.
 * The callers in the model throw the error away and keep the value, so
 * both halves of the answer are modelled.
 */
module Strconv {
  import opened Wrappers

  const MaxUint64: int := 0xFFFF_FFFF_FFFF_FFFF
  const MaxInt64: int := 0x7FFF_FFFF_FFFF_FFFF
  const MinInt64: int := -0x8000_0000_0000_0000

  /** Go's uint64 and int64, as ranges of unbounded integers. */
  type u64 = x: int | 0 <= x <= MaxUint64
  type i64 = x: int | MinInt64 <= x <= MaxInt64

  datatype NumError = ErrSyntax | ErrRange

  /** What a strconv parse returns: the value and the error beside it. */
  datatype Parsed<T> = Parsed(value: T, err: Option<NumError>)

  predicate IsDigit(c: char) {
    '0' <= c <= '9'
  }

  predicate AllDigits(s: string) {
    forall i :: 0 <= i < |s| ==> IsDigit(s[i])
  }

  function DigitValue(c: char): (d: nat)
    requires IsDigit(c)
    ensures d < 10
  {
    c as int - '0' as int
  }

  function DigitChar(d: nat): (c: char)
    requires d < 10
    ensures IsDigit(c) && DigitValue(c) == d
  {
    ('0' as int + d) as char
  }

  /** The number a string of decimal digits denotes, most significant digit first. */
  function DecimalValue(s: string): nat
    requires AllDigits(s)
    decreases |s|
  {
    if |s| == 0 then 0 else 10 * DecimalValue(s[..|s| - 1]) + DigitValue(s[|s| - 1])
  }

  /** Length of the run of decimal digits that starts the string. */
  function DigitRun(s: string): (k: nat)
    ensures k <= |s| && AllDigits(s[..k])
    ensures k < |s| ==> !IsDigit(s[k])
    decreases |s|
  {
    if |s| == 0 || !IsDigit(s[0]) then 0
    else
      var k := 1 + DigitRun(s[1..]);
      assert s[..k] == [s[0]] + s[1..][..k - 1];
      k
  }

  /**
   * Reference meaning of ParseUint(s, 10, 64): empty text is a syntax error;
   * otherwise look at the leading run of digits: if it already denotes more
   * than 2^64-1 the overflow is met first; else any byte after it is a syntax
   * error; else the text is the number.
   */
  function UintReference(s: string): Parsed<u64> {
    if |s| == 0 then Parsed(0, Some(ErrSyntax))
    else
      var k := DigitRun(s);
      var v := DecimalValue(s[..k]);
      if v > MaxUint64 then Parsed(MaxUint64, Some(ErrRange))
      else if k < |s| then Parsed(0, Some(ErrSyntax))
      else Parsed(v, None)
  }

  /** Go's overflow guard: n * 10 overflows a uint64 exactly when n >= Cutoff. */
  const Cutoff: int := MaxUint64 / 10 + 1

  /** Go's digit loop from position i with the value n accumulated so far. */
  function ScanUint(s: string, i: nat, n: u64): Parsed<u64>
    requires i <= |s|
    decreases |s| - i
  {
    if i == |s| then Parsed(n, None)
    else if !IsDigit(s[i]) then Parsed(0, Some(ErrSyntax))
    else if n >= Cutoff then Parsed(MaxUint64, Some(ErrRange))
    else
      // Go adds in uint64 and tests n1 < n; the wrapped sum is smaller than
      // n exactly when the true sum exceeds MaxUint64.
      var n1 := 10 * n + DigitValue(s[i]);
      if n1 > MaxUint64 then Parsed(MaxUint64, Some(ErrRange))
      else ScanUint(s, i + 1, n1)
  }

  /** strconv.ParseUint(s, 10, 64). */
  function ParseUint(s: string): (r: Parsed<u64>)
    ensures r == UintReference(s)
  {
    if |s| == 0 then Parsed(0, Some(ErrSyntax))
    else
      ScanUintMatchesReference(s, 0, 0);
      ScanUint(s, 0, 0)
  }

  lemma DecimalValueSnoc(s: string, i: nat)
    requires i < |s| && AllDigits(s[..i + 1])
    ensures AllDigits(s[..i])
    ensures DecimalValue(s[..i + 1]) == 10 * DecimalValue(s[..i]) + DigitValue(s[i])
  {
    assert s[..i + 1][..i] == s[..i];
  }

  /** A longer prefix of a digit string never denotes a smaller number. */
  lemma {:induction false} DecimalPrefixMonotone(s: string, j: nat, k: nat)
    requires j <= k <= |s| && AllDigits(s[..k])
    ensures AllDigits(s[..j]) && DecimalValue(s[..j]) <= DecimalValue(s[..k])
    decreases k - j
  {
    if j < k {
      DecimalValueSnoc(s, k - 1);
      DecimalPrefixMonotone(s, j, k - 1);
    }
  }

  lemma {:induction false} ScanUintMatchesReference(s: string, i: nat, n: u64)
    requires 0 < |s| && i <= DigitRun(s)
    requires AllDigits(s[..i]) && n == DecimalValue(s[..i])
    ensures ScanUint(s, i, n) == UintReference(s)
    decreases |s| - i
  {
    var k := DigitRun(s);
    if i == |s| {
      assert s[..k] == s;
    } else if !IsDigit(s[i]) {
      assert i == k;
    } else {
      assert i < k;
      DecimalValueSnoc(s, i);
      DecimalPrefixMonotone(s, i + 1, k);
      var n1 := 10 * n + DigitValue(s[i]);
      if n < Cutoff && n1 <= MaxUint64 {
        ScanUintMatchesReference(s, i + 1, n1);
      }
    }
  }

  /** strconv.FormatUint(n, 10): the shortest decimal text of n. */
  function FormatUint(n: nat): (s: string)
    ensures 0 < |s| && AllDigits(s) && DecimalValue(s) == n
    ensures s[0] != '0' || s == "0"
    decreases n
  {
    if n < 10 then [DigitChar(n)]
    else
      var s := FormatUint(n / 10) + [DigitChar(n % 10)];
      assert s[..|s| - 1] == FormatUint(n / 10);
      s
  }

  lemma AllDigitsRun(s: string)
    requires AllDigits(s)
    ensures DigitRun(s) == |s|
  {
  }

  /** Parsing the decimal text of any uint64 gives that number back, without error. */
  lemma ParseFormatUint(n: u64)
    ensures ParseUint(FormatUint(n)) == Parsed(n, None)
  {
    var s := FormatUint(n);
    AllDigitsRun(s);
    assert s[..|s|] == s;
  }

  /** The unsigned part of a ParseInt argument: the text after an optional sign. */
  function Unsigned(s: string): string {
    if 0 < |s| && (s[0] == '+' || s[0] == '-') then s[1..] else s
  }

  predicate Negative(s: string) {
    0 < |s| && s[0] == '-'
  }

  /** The magnitude m with the sign the text s starts with. */
  function Signed(s: string, m: nat): int {
    if Negative(s) then 0 - m else m
  }

  /** The int64 nearest to v. */
  function Clamp(v: int): i64 {
    if v < MinInt64 then MinInt64 else if v > MaxInt64 then MaxInt64 else v
  }

  /** strconv.ParseInt(s, 10, 64): an optional sign, then ParseUint, then a range check. */
  function ParseInt(s: string): (r: Parsed<i64>)
    ensures |s| == 0 ==> r == Parsed(0, Some(ErrSyntax))
    ensures r.err == Some(ErrSyntax) <==> UintReference(Unsigned(s)).err == Some(ErrSyntax)
    ensures r.err == Some(ErrSyntax) ==> r.value == 0
    ensures r.err == Some(ErrRange) ==> r.value == if Negative(s) then MinInt64 else MaxInt64
    ensures r.err == None ==>
              0 < |Unsigned(s)| && AllDigits(Unsigned(s)) &&
              r.value == Signed(s, DecimalValue(Unsigned(s)))
    ensures 0 < |s| && 0 < |Unsigned(s)| && AllDigits(Unsigned(s)) ==>
              var v := Signed(s, DecimalValue(Unsigned(s)));
              r.value == Clamp(v) && (r.err == None <==> MinInt64 <= v <= MaxInt64)
  {
    if |s| == 0 then Parsed(0, Some(ErrSyntax))
    else
      var u := ParseUint(Unsigned(s));
      AllDigitsDigitRun(Unsigned(s));
      if u.err == Some(ErrSyntax) then Parsed(0, Some(ErrSyntax))
      else if !Negative(s) && u.value >= -MinInt64 then Parsed(MaxInt64, Some(ErrRange))
      else if Negative(s) && u.value > -MinInt64 then Parsed(MinInt64, Some(ErrRange))
      else Parsed(Signed(s, u.value), None)
  }

  lemma AllDigitsDigitRun(s: string)
    ensures AllDigits(s) ==> DigitRun(s) == |s| && s[..DigitRun(s)] == s
  {
  }

  /** strconv.FormatInt(n, 10). */
  function FormatInt(n: int): (s: string)
    ensures 0 < |s|
  {
    if n < 0 then "-" + FormatUint(-n) else FormatUint(n)
  }

  /** Parsing the decimal text of any int64 gives that number back, without error. */
  lemma ParseFormatInt(n: i64)
    ensures ParseInt(FormatInt(n)) == Parsed(n, None)
  {
    var s := FormatInt(n);
    if n < 0 {
      assert Unsigned(s) == FormatUint(0 - n);
    } else {
      assert Unsigned(s) == FormatUint(n);
    }
  }
}

=== FILE: text.dfy ===
/**
 * The pieces of Go's strings and bufio packages the core relies on:
 * strings.TrimSpace, and the line-at-a-time reading that
 * bufio.Reader.ReadString('\n') performs on a stream.
 */
module Text {

  /** Go's unicode.IsSpace: the Latin-1 spaces plus Unicode's White_Space property. */
  predicate IsSpace(c: char) {
    var n := c as int;
    || n == 0x09 || n == 0x0A || n == 0x0B || n == 0x0C || n == 0x0D || n == 0x20
    || n == 0x85 || n == 0xA0 || n == 0x1680 || 0x2000 <= n <= 0x200A
    || n == 0x2028 || n == 0x2029 || n == 0x202F || n == 0x205F || n == 0x3000
  }

  predicate AllSpace(s: string) {
    forall i :: 0 <= i < |s| ==> IsSpace(s[i])
  }

  /** Neither end of s is white space. */
  predicate Trimmed(s: string) {
    s == [] || (!IsSpace(s[0]) && !IsSpace(s[|s| - 1]))
  }

  /** strings.TrimLeftFunc(s, unicode.IsSpace). */
  function TrimLeft(s: string): (r: string)
    ensures |r| <= |s| && r == s[|s| - |r|..]
    ensures AllSpace(s[..|s| - |r|])
    ensures r == [] || !IsSpace(r[0])
    decreases |s|
  {
    if 0 < |s| && IsSpace(s[0]) then
      var r := TrimLeft(s[1..]);
      assert s[1..][|s| - 1 - |r|..] == s[|s| - |r|..];
      assert s[..|s| - |r|] == [s[0]] + s[1..][..|s| - 1 - |r|];
      r
    else s
  }

  /** strings.TrimRightFunc(s, unicode.IsSpace). */
  function TrimRight(s: string): (r: string)
    ensures |r| <= |s| && r == s[..|r|]
    ensures AllSpace(s[|r|..])
    ensures r == [] || !IsSpace(r[|r| - 1])
    decreases |s|
  {
    if 0 < |s| && IsSpace(s[|s| - 1]) then
      var r := TrimRight(s[..|s| - 1]);
      assert s[..|s| - 1][..|r|] == s[..|r|];
      assert s[|r|..] == s[..|s| - 1][|r|..] + [s[|s| - 1]];
      r
    else s
  }

  /** r is what is left of s between a leading run of white space ending at i and a trailing one. */
  predicate TrimAt(s: string, r: string, i: int) {
    0 <= i <= |s| - |r| && s[i..i + |r|] == r && AllSpace(s[..i]) && AllSpace(s[i + |r|..])
  }

  /**
   * strings.TrimSpace: the result is the piece of s left between a leading
   * and a trailing run of white space, and neither of its ends is white space.
   */
  function TrimSpace(s: string): (r: string)
    ensures Trimmed(r)
    ensures exists i :: TrimAt(s, r, i)
  {
    var l := TrimLeft(s);
    var r := TrimRight(l);
    TrimBothAt(s, l, r);
    r
  }

  lemma TrimBothAt(s: string, l: string, r: string)
    requires |l| <= |s| && l == s[|s| - |l|..] && AllSpace(s[..|s| - |l|]) && (l == [] || !IsSpace(l[0]))
    requires |r| <= |l| && r == l[..|r|] && AllSpace(l[|r|..]) && (r == [] || !IsSpace(r[|r| - 1]))
    ensures Trimmed(r) && TrimAt(s, r, |s| - |l|)
  {
    var i := |s| - |l|;
    assert r == [] || r[0] == l[0];
    assert s[i..i + |r|] == r;
    assert s[i + |r|..] == l[|r|..];
  }

  /** A trimmed text is empty exactly when the text is all white space. */
  lemma TrimSpaceEmpty(s: string)
    ensures TrimSpace(s) == [] <==> AllSpace(s)
  {
    var l := TrimLeft(s);
    assert s == s[..|s| - |l|] + l;
    if AllSpace(s) {
      TrimLeftAllSpace(s);
    }
    if TrimRight(l) == [] {
      assert l[0..] == l;
    }
  }

  lemma {:induction false} TrimLeftAllSpace(s: string)
    requires AllSpace(s)
    ensures TrimLeft(s) == []
    decreases |s|
  {
    if 0 < |s| {
      TrimLeftAllSpace(s[1..]);
    }
  }

  predicate NoNewline(s: string) {
    forall i :: 0 <= i < |s| ==> s[i] != '\n'
  }

  /** One line as ReadString('\n') returns it: text up to and including its only newline. */
  predicate IsLine(l: string) {
    0 < |l| && l[|l| - 1] == '\n' && NoNewline(l[..|l| - 1])
  }

  /** Position of the first newline, or the length when there is none. */
  function FirstNewline(s: string): (k: nat)
    ensures k <= |s| && NoNewline(s[..k])
    ensures k < |s| ==> s[k] == '\n'
    decreases |s|
  {
    if |s| == 0 || s[0] == '\n' then 0
    else
      var k := 1 + FirstNewline(s[1..]);
      assert s[..k] == [s[0]] + s[1..][..k - 1];
      k
  }

  /** Concatenation regroups freely; stated once so proofs can cite it instead of rediscovering it. */
  lemma JoinAssoc<T>(a: seq<T>, b: seq<T>, c: seq<T>)
    ensures (a + b) + c == a + (b + c)
  {
  }

  function Concat(ls: seq<string>): string
    decreases |ls|
  {
    if |ls| == 0 then "" else ls[0] + Concat(ls[1..])
  }

  lemma {:induction false} ConcatAppend(a: seq<string>, b: seq<string>)
    ensures Concat(a + b) == Concat(a) + Concat(b)
    decreases |a|
  {
    if |a| == 0 {
      assert a + b == b;
    } else {
      assert (a + b)[1..] == a[1..] + b;
      ConcatAppend(a[1..], b);
    }
  }

  /** A stream read line by line: the complete lines, then what is left after the last newline. */
  datatype Split = Split(lines: seq<string>, rest: string)

  /** The complete lines of s together give s up to its last newline; the rest holds no newline. */
  predicate SplitOf(sp: Split, s: string) {
    && Concat(sp.lines) + sp.rest == s
    && (forall j :: 0 <= j < |sp.lines| ==> IsLine(sp.lines[j]))
    && NoNewline(sp.rest)
  }

  /** Reads s with ReadString('\n') until no newline is left. */
  function SplitLines(s: string): (sp: Split)
    ensures SplitOf(sp, s)
    decreases |s|
  {
    var k := FirstNewline(s);
    if k == |s| then
      assert s[..k] == s;
      Split([], s)
    else
      var tail := SplitLines(s[k + 1..]);
      SplitStep(s, k, tail);
      Split([s[..k + 1]] + tail.lines, tail.rest)
  }

  lemma SplitStep(s: string, k: nat, tail: Split)
    requires k < |s| && NoNewline(s[..k]) && s[k] == '\n'
    requires SplitOf(tail, s[k + 1..])
    ensures SplitOf(Split([s[..k + 1]] + tail.lines, tail.rest), s)
  {
    assert IsLine(s[..k + 1]) by {
      assert s[..k + 1][..k] == s[..k];
    }
    assert s == s[..k + 1] + s[k + 1..];
    SplitCons(s[..k + 1], tail, s[k + 1..]);
  }

  lemma SplitCons(line: string, tail: Split, t: string)
    requires IsLine(line) && SplitOf(tail, t)
    ensures SplitOf(Split([line] + tail.lines, tail.rest), line + t)
  {
    var lines := [line] + tail.lines;
    assert lines[1..] == tail.lines;
    assert Concat(lines) == line + Concat(tail.lines);
    assert forall j :: 1 <= j < |lines| ==> lines[j] == tail.lines[j - 1];
  }

  lemma {:induction false} FirstNewlineNone(s: string)
    requires NoNewline(s)
    ensures FirstNewline(s) == |s|
    decreases |s|
  {
    if 0 < |s| {
      FirstNewlineNone(s[1..]);
    }
  }

  lemma {:induction false} FirstNewlineOfLine(l: string, t: string)
    requires IsLine(l)
    ensures FirstNewline(l + t) == |l| - 1
    decreases |l|
  {
    if 1 < |l| {
      assert (l + t)[1..] == l[1..] + t;
      assert l[1..][..|l| - 2] == l[..|l| - 1][1..];
      FirstNewlineOfLine(l[1..], t);
    }
  }

  /** Lines are unique: any decomposition of s into complete lines and a newline-free rest is SplitLines(s). */
  lemma {:induction false} SplitLinesUnique(sp: Split, s: string)
    requires SplitOf(sp, s)
    ensures SplitLines(s) == sp
    decreases |s|
  {
    var k := FirstNewline(s);
    if |sp.lines| == 0 {
      assert sp.rest == s;
      FirstNewlineNone(s);
    } else {
      var l := sp.lines[0];
      var tail := Split(sp.lines[1..], sp.rest);
      assert IsLine(l);
      assert Concat(sp.lines) == l + Concat(tail.lines);
      assert s == l + (Concat(tail.lines) + sp.rest);
      FirstNewlineOfLine(l, Concat(tail.lines) + sp.rest);
      assert s[..|l|] == l;
      assert s[k + 1..] == Concat(tail.lines) + sp.rest;
      assert forall j :: 0 <= j < |tail.lines| ==> tail.lines[j] == sp.lines[j + 1];
      SplitLinesUnique(tail, s[k + 1..]);
      assert sp.lines == [l] + tail.lines;
    }
  }

  /** p is the longest prefix of s that is empty or ends in a newline. */
  predicate LongestTerminatedPrefix(p: string, s: string) {
    && p <= s
    && (p == [] || p[|p| - 1] == '\n')
    && NoNewline(s[|p|..])
  }

  /** The complete lines of s, joined, are exactly its longest newline-terminated prefix. */
  lemma {:induction false} LinesAreTerminatedPrefix(s: string)
    ensures LongestTerminatedPrefix(Concat(SplitLines(s).lines), s)
  {
    var sp := SplitLines(s);
    var p := Concat(sp.lines);
    assert s == p + sp.rest;
    assert s[|p|..] == sp.rest;
    if p != [] {
      LastLineEnds(sp.lines);
    }
  }

  lemma {:induction false} LastLineEnds(ls: seq<string>)
    requires forall j :: 0 <= j < |ls| ==> IsLine(ls[j])
    requires Concat(ls) != []
    ensures Concat(ls)[|Concat(ls)| - 1] == '\n'
    decreases |ls|
  {
    if Concat(ls[1..]) == [] {
      assert Concat(ls) == ls[0] + [];
    } else {
      LastLineEnds(ls[1..]);
    }
  }
}

=== FILE: wrappers.dfy ===
/** Small failure-carrying datatypes shared by the rest of the model. */
module Wrappers {

  /** A value that may be absent. */
  datatype Option<+T> = None | Some(value: T)
}
